=== FILE: README.md ===
# Student record store — Dafny model

This project models the in-memory student store of a small Express API. It
covers the router in `routes/students.js` and the create-time validator
`validateStudent` in `middleware/validation.js`. The store is an ordered
sequence of student records:

- **Read routes:** list with filters, statistics, search, by grade and get by id.
- **Write routes:** create, bulk create, partial update, grade-only update
  and delete.

Each route is a pure function. It takes the collection and the request and
returns the reply (a `Result`) together with the collection it leaves behind
(a `Step`). The clock is a parameter, `today`. The four seed records of
`data/students.js` appear as a worked example.

The project has seven modules:

- `Text`: ASCII case mapping, `includes` as `Contains`, the JavaScript `\s`
  class, and the e-mail pattern `^\S+@\S+\.\S+$`. The pattern is defined as a
  predicate, restated without slices, and decided by a linear scan.
- `Records`: the record, patch and error types, `find`/`findIndex`,
  `generateNewId`, order-preserving `filter`, and the two uniqueness
  invariants (ids, and e-mails ignoring case).
- `Validation`: `validateStudent` and the record shape it guarantees.
- `Queries`: `GET /`, `/stats`, `/search`, `/grade/:grade` and `/:id`.
- `Updates`: `POST /`, `PUT /:id`, `PUT /:id/grade` and `DELETE /:id`.
- `Bulk`: the first `POST /bulk` handler, which is the one Express dispatches to.
- `Examples`: concrete runs on the seed and on small hand-made collections.

Several behaviours differ from what a reader might assume:

- **The partial update is not all-or-nothing.** `PUT /:id` writes each field
  into the stored object as soon as that field passes its check. A later
  failing field leaves the earlier fields written (lines 130-181). See
  `Updates.UpdateBadAgeKeepsEarlierFields` and `Updates.UpdateStopsAt`.
- **The update's e-mail check is case-sensitive.** The partial update tests
  for an exact e-mail match (line 148). Create (line 98) and bulk (line 243)
  compare ignoring case. So an update can store an e-mail that differs from
  another record's only in case. See `Examples.UpdateAllowsCaseVariantEmail`
  and `Updates.UpdateKeepsDistinctEmails`.
- **The bulk route checks presence, e-mail format and duplicates only.** It does not check name length,
  age range or grade letter. It forces `isActive` to true and stores the
  upper-cased grade whatever it is. See `Examples.BulkStoresUnvalidated`.
- **Grades are strings.** The seed holds grade `"c"`. The statistics count it
  under its own key, and no grade query or by-grade lookup can return it.

## Model

| member | source | states |
|---|---|---|
| `Text.MatchEmail` | middleware/validation.js:9 | the scan returns true exactly when the whole string is a non-space run, `@`, a run, `.`, and a run, as the regular expression demands |
| `Text.EmailPatternIsShape` | routes/students.js:145 | the pattern holds iff the string has no whitespace, an `@` past the first character, and a later `.` with at least one character on each side (the runs may contain `@` and `.`) |
| `Text.ContainsTrans` | routes/students.js:59-64 | `includes` is transitive: a substring of a substring of `s` occurs in `s` |
| `Text.ContainsLower` | routes/students.js:60-63 | lower-casing both sides keeps an occurrence |
| `Text.UpperOfLowerEqual` | routes/students.js:71 | two strings equal ignoring case have the same `toUpperCase()` |
| `Records.FindIndex` | routes/students.js:121 | `findIndex` returns the first index holding the id, and is -1 (`None`) exactly when no record has it |
| `Records.NewId` | routes/students.js:8-10 | `generateNewId` is larger than every stored id; it is 1 for an empty collection and otherwise some stored id plus one |
| `Records.AppendKeepsUnique` | routes/students.js:98-114 | appending a record with a fresh id and an e-mail not taken ignoring case keeps ids and e-mails unique |
| `Records.Keep` | routes/students.js:19 | `filter` keeps exactly the elements satisfying the predicate, and never more than it was given |
| `Records.KeepAppend` | routes/students.js:19 | filtering distributes over concatenation, so it keeps relative order |
| `Records.KeepKeep` | routes/students.js:17-30 | two successive filters are one filter by the conjunction |
| `Validation.ValidateStudent` | middleware/validation.js:3-17 | an accepted request has all five fields, a grade whose upper case is A–F, an e-mail matching the pattern and an age in 16..100 |
| `Validation.OnlyFiveFields` | middleware/validation.js:4 | subjects and isActive never change the verdict |
| `Validation.NameBoundaries` | middleware/validation.js:7-8 | a first or last name passes exactly when it has 2 to 50 characters, all else equal; an absent name fails |
| `Validation.AgeBoundaries` | middleware/validation.js:10 | 16 and 100 pass, 15 and 101 fail, all else equal |
| `Validation.GradeCaseInsensitive` | middleware/validation.js:11 | a grade letter is accepted in either case; an absent grade is refused |
| `Queries.List` | routes/students.js:13-33 | a record is listed iff it is stored and passes every filter the query carries: `active` compared with `"true"`, grade against the upper-cased parameter, subject ignoring case |
| `Queries.ListIsOneFilter` | routes/students.js:14-30 | the three successive filters equal one order-preserving filter by the conjunction |
| `Queries.ListNoFilters` | routes/students.js:14 | with no parameter the whole collection is listed |
| `Queries.ListGradeCaseInsensitive` | routes/students.js:22-24 | grade parameters equal ignoring case give the same list |
| `Queries.LowerCaseGradeNeverListed` | routes/students.js:23 | a record whose stored grade starts with a lower-case letter is never selected by a grade filter |
| `Queries.Histogram` | routes/students.js:39-42 | the distribution's keys are exactly the stored grade strings, each mapped to the number of records holding it |
| `Queries.GetStats` | routes/students.js:36-49 | total is the collection's size, active count at most total, every stored grade a key, and every count between 1 and total |
| `Queries.StatsDistributionSums` | routes/students.js:39-47 | the distribution's counts add up to the total |
| `Queries.StatsAgreeWithList` | routes/students.js:36-42 | the active count is the size of `?active=true`, the rest is the size of `?active=false`, and each letter's count is the size of `?grade=<letter>` |
| `Queries.Search` | routes/students.js:52-67 | an absent or empty term is an invalid argument; otherwise a record is returned iff the lower-cased term occurs in its lower-cased first name, last name, e-mail or some subject, and a one-record collection gives that record or nothing |
| `Queries.SearchAppend` | routes/students.js:59-64 | the search keeps collection order: searching a concatenation gives the hits of the first part followed by the hits of the second |
| `Queries.SearchNarrows` | routes/students.js:59-64 | every record found for a term is found for any non-empty piece of it |
| `Queries.SearchFindsFirstName` | routes/students.js:60 | searching for a stored record's non-empty first name finds it |
| `Queries.ByGrade` | routes/students.js:70-80 | invalid argument iff the upper-cased parameter is not A–F; otherwise the same records as the list route's grade filter |
| `Queries.ByGradeCaseInsensitive` | routes/students.js:71 | parameters equal ignoring case give the same reply |
| `Queries.Get` | routes/students.js:83-92 | not found iff no record has the id; otherwise a stored record with that id |
| `Queries.GetStored` | routes/students.js:85 | with distinct ids, a stored record's id returns that record |
| `Updates.Create` | routes/students.js:95-116 | aggregate validation failure iff the validator refuses; conflict iff it accepts and the e-mail is taken ignoring case; success iff it accepts and the e-mail is not taken; a failure changes nothing; success appends one well-formed record carrying the request's fields, the id `generateNewId` gives the collection before the call, today's date and the defaults, and keeps both uniqueness invariants |
| `Updates.CreateThenGet` | routes/students.js:114 | with distinct ids, a created record is found by its id |
| `Updates.CreateCaseVariantConflicts` | routes/students.js:98-100 | an e-mail equal ignoring case to a stored one is a conflict and changes nothing |
| `Updates.ApplyFields` | routes/students.js:130-181 | the field walk succeeds iff every field passes its check, then yields the fully patched record; no other record, id or enrollment date changes; a well-formed record stays well-formed |
| `Updates.ApplyFieldsStopsAtFirst` | routes/students.js:130-181 | a failing walk stopped at some field whose check fails, after all earlier fields passed and were assigned |
| `Updates.ApplyFieldsStopsAt` | routes/students.js:130-181 | when the fields before position `m` pass and the one at `m` fails, the error is that field's, and the record holds exactly the assignments before `m` |
| `Updates.ApplyAllIsPatched` | routes/students.js:130-181 | assigning the seven fields in handler order gives the record with the whole patch applied |
| `Updates.CheckFieldFrame` | routes/students.js:148 | the clash check ignores the record being updated, so changing that record does not change any check |
| `Updates.UpdatePartial` | routes/students.js:119-185 | not found iff the id is absent, and then nothing changes; otherwise only the first record with the id changes, never its id or date; success iff every field passes, replying with the patched record; a failure leaves the assignments of the fields before the failing one |
| `Updates.UpdateStopsAt` | routes/students.js:130-183 | the partial update stops at the first failing field, keeping exactly the earlier assignments |
| `Updates.UpdateBadAgeKeepsEarlierFields` | routes/students.js:130-158 | valid names with an out-of-range age fail on age but leave the new names stored |
| `Updates.UpdateOnlyBadAgeChangesNothing` | routes/students.js:154-157 | a patch with only an invalid age fails and changes nothing |
| `Updates.UpdateEmailSource` | routes/students.js:144-152 | a changed e-mail came from the patch and no other record holds it exactly |
| `Updates.UpdateKeepsDistinctEmails` | routes/students.js:148 | with distinct ids, e-mails that are distinct as written stay distinct |
| `Updates.UpdateCaseVariantBreaksUnique` | routes/students.js:144-152 | an e-mail-only patch equal to another record's e-mail up to case, but not exactly, passes the exact clash check, succeeds, and leaves the collection without unique e-mails ignoring case |
| `Updates.UpdateGrade` | routes/students.js:188-204 | not found iff the id is absent; invalid argument iff it is present and the grade is absent, empty or not A–F; success iff it is present and the grade is an accepted letter; on success only that record's grade changes, to the upper-cased letter |
| `Updates.UpdateGradeIsGradeOnlyPatch` | routes/students.js:188-204 | for an accepted letter the grade route equals a grade-only partial update |
| `Updates.Delete` | routes/students.js:207-217 | not found iff the id is absent, and then nothing changes; otherwise the first record with the id is removed and returned, and the others keep their order |
| `Updates.DeleteThenGet` | routes/students.js:209-215 | with distinct ids, the deleted id is no longer found and both uniqueness invariants survive |
| `Bulk.Process` | routes/students.js:230-262 | the counts of added records and errors add up to the number of entries; the collection grows by exactly the added records; error indices and the indices of the accepted entries lie in range and increase |
| `Bulk.ProcessPartition` | routes/students.js:230-262 | every entry index is either accepted (its record added) or reported, never both |
| `Bulk.ProcessReasons` | routes/students.js:233-246 | each error's reason is the first check its entry fails; an e-mail-exists error means the e-mail is taken, ignoring case, in the collection the batch started from or by a record added from an earlier entry |
| `Bulk.ProcessReportsRejected` | routes/students.js:233-241 | an entry missing a field or with a malformed e-mail is always reported |
| `Bulk.ProcessAdded` | routes/students.js:243-261 | each added record comes from an entry that passed every check against the collection plus the records added before it, and carries that entry's names, e-mail and age, its grade upper-cased, its subjects or none, the id `generateNewId` gives that grown collection, today's date and isActive true; every id is above every id held before the batch |
| `Bulk.ProcessAddsFresh` | routes/students.js:230-262 | an entry that fails no check on its own, whose e-mail ignoring case is held neither by the collection nor by any other entry from the starting index on, is never reported and is added as its own record |
| `Bulk.BulkAddsFresh` | routes/students.js:220-271 | through the route: such an entry, unique ignoring case within the whole batch, is not among the errors and is among the added records |
| `Bulk.ProcessKeepsUnique` | routes/students.js:243-260 | checking against the growing collection keeps ids unique, and e-mails unique ignoring case, within the batch too |
| `Bulk.CreateBulk` | routes/students.js:220-271 | invalid argument iff the body is not an array, and then nothing changes; otherwise the counts add up to the number of entries, the collection grows by the added records, errors come in entry order, every reported reason fits its entry and is the verdict on it against the collection as it had grown, every entry failing on its own is reported, every added record is a passing entry turned into a record against the grown collection; moreover some increasing list of accepted entry indices accounts for the reply: each index is accepted or reported but not both, each error is the first failing check of its entry against the collection plus exactly the records accepted before it, and each added record is its entry turned into a record there; both invariants survive |
| `Bulk.BulkAgreesWithCreate` | routes/students.js:233-258 | a request the validator accepts passes bulk's presence and format checks; the two routes agree on whether its e-mail is taken; and bulk appends the record create would append with isActive true |
| `Examples.SeedStats` | data/students.js:1-46 | the seed's statistics are 4 records, 3 active, distribution A:2, B:1, c:1 |
| `Examples.SeedLowerCaseGradeHidden` | data/students.js:24-34 | the seed's `"c"` record is never returned by a non-empty grade query |
| `Examples.SeedGetMike` | routes/students.js:83-92 | with the seed's distinct ids, looking up id 2 returns the second seed record |
| `Examples.SearchChem` | routes/students.js:63 | `chem` finds the seed record whose subjects include `Chemistry` |
| `Examples.BulkOneGoodOneMissing` | routes/students.js:230-262 | a valid entry followed by one without an age adds one record and reports index 1 as missing fields |
| `Examples.BulkLaterDuplicateReported` | routes/students.js:243-260 | of two entries whose e-mails differ only in case, the first is added and the second is reported at index 1 as a duplicate |
| `Examples.BulkStoresUnvalidated` | routes/students.js:233-257 | bulk stores a one-letter name, an age of 1 and grade `Z`, a record create would refuse |
| `Examples.UpdateAllowsCaseVariantEmail` | routes/students.js:148 | an update can give a record an e-mail equal to another's up to case, which breaks uniqueness ignoring case |
| `Examples.ByGradeLetters` | routes/students.js:71-76 | `Z` is an invalid argument, and `f` gives the same reply as `F` |

## Left out

- The HTTP layer (`server.js`, status codes, JSON bodies and message texts) is left out. Replies are `Result` values whose error kinds stand for the status codes: `NotFound` 404, `ValidationFailed` 400, `Conflict` 409, `InvalidArgument` 400.
- The handlers registered after the first `POST /bulk` (`routes/students.js:273-361`) are left out. Express dispatches to the first matching registration, so they never run.
- The clock is left out: `new Date().toISOString().split('T')[0]` is the parameter `today`.
- `parseInt` on the path parameter is left out. Ids are integers, so the `NaN` that matches no record is not modelled.
- JavaScript's dynamic types are left out. Patch fields are typed, so the `typeof` checks of `PUT /:id` on names, age and isActive, and its `Array.isArray` check on subjects, cannot fail. A non-string grade, which would throw a `TypeError` in `toUpperCase`, cannot occur.
- Non-integer ages (fractions, `NaN`, `Infinity`) are left out. Ages are mathematical integers.
- Repeated query parameters, which Express turns into arrays, are left out.
- Case mapping covers ASCII letters only. `toUpperCase`/`toLowerCase` on other letters (including those whose case mapping changes length) is not modelled.
- Lengths count code points rather than UTF-16 code units. The 2..50 name bounds therefore differ from the source for characters outside the Basic Multilingual Plane.
- The engine's argument-count limit on `Math.max(...ids)` for very large collections is left out.
- Sharing of the record objects is left out. `GET` replies return the stored objects themselves, and the write routes change those objects and the module-level array in place. The model works on values.
- `data/students.js` declares the seed array but exports nothing, so `require('../data/students')` at routes/students.js:4 yields an empty object and every route that uses the collection would throw. The model's store stands for a populated collection instead; `Examples.Seed` is only an example collection built from the seed's four records.
- `Queries.StatsAgreeWithList`: the agreement holds only because `isActive` is a boolean in the model. `POST /` stores `isActive` and `subjects` as given (middleware/validation.js:4 reads only five fields; routes/students.js:96, 109 and 111 copy them). The stats route counts a truthy `isActive` (routes/students.js:38), while `?active=true` keeps only `isActive === true` (routes/students.js:18-19), so a stored `1` or `"yes"` is counted as active but not listed. A stored non-array `subjects` makes the subject filter and the search throw.
- `Queries.GetStats`: the distribution is a map from grade strings to counts. JavaScript object key order, meaning insertion order, is not modelled.

=== FILE: bulk.dfy ===
/** `POST /bulk` (the first of the two registrations, the one Express
    dispatches to): each entry of the array is checked for presence of the
    five fields, then e-mail format, then an e-mail already stored (ignoring
    case, against the collection as it grows); a passing entry is appended at
    once, a failing one is reported with its index. */
module Bulk {
  import opened Text
  import opened Records
  import opened Validation
  import Updates

  /** The request body: an array of entries, or anything else. */
  datatype Body = Entries(entries: seq<Fields>) | NotAnArray

  datatype Reason = MissingFields | InvalidEmail | EmailExists

  datatype EntryError = EntryError(index: nat, reason: Reason)

  /** `successCount` is `|added|`, `errorCount` is `|errors|`. */
  datatype Report = Report(added: seq<Student>, errors: seq<EntryError>)

  /** The outcome of the `forEach`: the response, the collection after it,
      and, for each added record, the index of the entry it came from. */
  datatype Run = Run(report: Report, store: Store, accepted: seq<nat>)

  /** Some error of the list is reported at index `j`. */
  predicate Reported(errors: seq<EntryError>, j: nat) {
    exists m :: 0 <= m < |errors| && errors[m].index == j
  }

  /** JavaScript falsiness of an optional string: absent or empty. */
  predicate Falsy(o: Option<string>) {
    o.None? || o.value == ""
  }

  /** `!firstName || !lastName || !email || !age || !grade`: an age of 0
      counts as missing, and nothing else about the values is checked. */
  predicate Missing(e: Fields) {
    Falsy(e.firstName) || Falsy(e.lastName) || Falsy(e.email)
    || e.age.None? || e.age.value == 0 || Falsy(e.grade)
  }

  /** The entry fails on its own, whatever the collection holds. */
  predicate FormatRejected(e: Fields) {
    Missing(e) || !EmailPattern(e.email.value)
  }

  /** The first failing check for one entry against the current collection. */
  function Verdict(s: Store, e: Fields): Option<Reason> {
    if Missing(e) then Some(MissingFields)
    else if !EmailPattern(e.email.value) then Some(InvalidEmail)
    else if EmailTaken(s, e.email.value) then Some(EmailExists)
    else None
  }

  /** The reason recorded for an entry is the first check it fails. */
  predicate ReasonFits(e: Fields, why: Reason) {
    match why
    case MissingFields => Missing(e)
    case InvalidEmail => !Missing(e) && !EmailPattern(e.email.value)
    case EmailExists => !Missing(e) && EmailPattern(e.email.value)
  }

  /** The record a passing entry becomes: grade upper-cased but not checked,
      subjects defaulting to none, isActive forced to true. */
  function BulkStudent(s: Store, e: Fields, today: string): Student
    requires !Missing(e)
  {
    Student(NewId(s), e.firstName.value, e.lastName.value, e.email.value, e.age.value,
            Upper(e.grade.value), e.subjects.GetOr([]), today, true)
  }

  /** The `forEach` over `entries[from..]`, starting from collection `s`.
      The counts add up, and the error indices and the accepted indices
      each lie in range and increase. */
  function Process(s: Store, entries: seq<Fields>, from: nat, today: string): (r: Run)
    requires from <= |entries|
    ensures |r.report.added| + |r.report.errors| == |entries| - from
    ensures r.store == s + r.report.added
    ensures |r.accepted| == |r.report.added|
    ensures forall k :: 0 <= k < |r.report.errors| ==> from <= r.report.errors[k].index < |entries|
    ensures forall k :: 0 <= k < |r.accepted| ==> from <= r.accepted[k] < |entries|
    ensures forall a, b :: 0 <= a < b < |r.report.errors| ==>
              r.report.errors[a].index < r.report.errors[b].index
    ensures forall a, b :: 0 <= a < b < |r.accepted| ==> r.accepted[a] < r.accepted[b]
    decreases |entries| - from
  {
    if from == |entries| then Run(Report([], []), s, [])
    else
      var e := entries[from];
      match Verdict(s, e)
      case Some(why) =>
        var rest := Process(s, entries, from + 1, today);
        PrependError(EntryError(from, why), rest.report.errors, |entries|);
        Run(Report(rest.report.added, [EntryError(from, why)] + rest.report.errors), rest.store, rest.accepted)
      case None =>
        var st := BulkStudent(s, e, today);
        var rest := Process(s + [st], entries, from + 1, today);
        PrependIndex(from, rest.accepted, |entries|);
        assert s + [st] + rest.report.added == s + ([st] + rest.report.added);
        Run(Report([st] + rest.report.added, rest.report.errors), rest.store, [from] + rest.accepted)
  }

  /** Putting an error for index `e.index` before errors for later indices
      keeps the indices in range and increasing. */
  lemma PrependError(e: EntryError, rest: seq<EntryError>, hi: nat)
    requires e.index < hi
    requires forall k :: 0 <= k < |rest| ==> e.index + 1 <= rest[k].index < hi
    requires forall a, b :: 0 <= a < b < |rest| ==> rest[a].index < rest[b].index
    ensures forall k :: 0 <= k < |[e] + rest| ==> e.index <= ([e] + rest)[k].index < hi
    ensures forall a, b :: 0 <= a < b < |[e] + rest| ==> ([e] + rest)[a].index < ([e] + rest)[b].index
  {
    var errors := [e] + rest;
    assert forall k :: 1 <= k < |errors| ==> errors[k] == rest[k - 1];
  }

  /** Putting index `i` before later indices keeps them in range and
      increasing. */
  lemma PrependIndex(i: nat, rest: seq<nat>, hi: nat)
    requires i < hi
    requires forall k :: 0 <= k < |rest| ==> i + 1 <= rest[k] < hi
    requires forall a, b :: 0 <= a < b < |rest| ==> rest[a] < rest[b]
    ensures forall k :: 0 <= k < |[i] + rest| ==> i <= ([i] + rest)[k] < hi
    ensures forall a, b :: 0 <= a < b < |[i] + rest| ==> ([i] + rest)[a] < ([i] + rest)[b]
  {
    var xs := [i] + rest;
    assert forall k :: 1 <= k < |xs| ==> xs[k] == rest[k - 1];
  }

  /** An entry that fails a check is reported at its index and skipped. */
  lemma ProcessSkip(s: Store, entries: seq<Fields>, from: nat, today: string)
    requires from < |entries| && Verdict(s, entries[from]).Some?
    ensures var rest := Process(s, entries, from + 1, today);
      Process(s, entries, from, today)
        == Run(Report(rest.report.added, [EntryError(from, Verdict(s, entries[from]).value)] + rest.report.errors),
               rest.store, rest.accepted)
  {
  }

  /** An entry that passes is appended before the next entry is checked. */
  lemma ProcessTake(s: Store, entries: seq<Fields>, from: nat, today: string)
    requires from < |entries| && Verdict(s, entries[from]).None?
    ensures var st := BulkStudent(s, entries[from], today);
      var rest := Process(s + [st], entries, from + 1, today);
      Process(s, entries, from, today)
        == Run(Report([st] + rest.report.added, rest.report.errors), rest.store, [from] + rest.accepted)
  {
  }

  lemma VerdictFits(s: Store, e: Fields)
    requires Verdict(s, e).Some?
    ensures ReasonFits(e, Verdict(s, e).value)
  {
  }

  /** Every index of the batch is either accepted or reported, never both. */
  lemma {:induction false} ProcessPartition(s: Store, entries: seq<Fields>, from: nat, today: string)
    requires from <= |entries|
    ensures forall j :: from <= j < |entries| ==>
      (j in Process(s, entries, from, today).accepted <==> !Reported(Process(s, entries, from, today).report.errors, j))
    decreases |entries| - from
  {
    if from < |entries| {
      if Verdict(s, entries[from]).Some? {
        PartitionSkip(s, entries, from, today);
      } else {
        PartitionTake(s, entries, from, today);
      }
    }
  }

  lemma {:induction false} PartitionSkip(s: Store, entries: seq<Fields>, from: nat, today: string)
    requires from < |entries| && Verdict(s, entries[from]).Some?
    ensures var r := Process(s, entries, from, today);
      forall j :: from <= j < |entries| ==> (j in r.accepted <==> !Reported(r.report.errors, j))
    decreases |entries| - from, 0
  {
    var r := Process(s, entries, from, today);
    var rest := Process(s, entries, from + 1, today);
    ProcessPartition(s, entries, from + 1, today);
    ProcessSkip(s, entries, from, today);
    var errors, more := r.report.errors, rest.report.errors;
    assert errors[0].index == from;
    assert Reported(errors, from);
    forall j | from < j < |entries|
      ensures Reported(errors, j) <==> Reported(more, j)
    {
      if Reported(more, j) {
        var m :| 0 <= m < |more| && more[m].index == j;
        assert errors[m + 1] == more[m];
      }
      if Reported(errors, j) {
        var m :| 0 <= m < |errors| && errors[m].index == j;
        assert errors[m] == more[m - 1];
      }
    }
  }

  lemma {:induction false} PartitionTake(s: Store, entries: seq<Fields>, from: nat, today: string)
    requires from < |entries| && Verdict(s, entries[from]).None?
    ensures var r := Process(s, entries, from, today);
      forall j :: from <= j < |entries| ==> (j in r.accepted <==> !Reported(r.report.errors, j))
    decreases |entries| - from, 0
  {
    var st := BulkStudent(s, entries[from], today);
    var r := Process(s, entries, from, today);
    var rest := Process(s + [st], entries, from + 1, today);
    ProcessPartition(s + [st], entries, from + 1, today);
    ProcessTake(s, entries, from, today);
    assert from !in rest.accepted;
    assert !Reported(rest.report.errors, from);
  }

  /** Error `m` of a run from `s` carries the first check its entry fails
      against the collection as it stood when that entry was reached: `s`
      plus the records added from the entries before it. */
  predicate ErrorFits(s: Store, entries: seq<Fields>, r: Run, m: nat) {
    && m < |r.report.errors| && r.report.errors[m].index < |entries|
    && |r.accepted| == |r.report.added|
    && exists n :: 0 <= n <= |r.accepted|
         && (forall k :: 0 <= k < n ==> r.accepted[k] < r.report.errors[m].index)
         && (forall k :: n <= k < |r.accepted| ==> r.report.errors[m].index < r.accepted[k])
         && Verdict(s + r.report.added[..n], entries[r.report.errors[m].index]) == Some(r.report.errors[m].reason)
  }

  /** `ErrorFits` from an explicit count `n` of earlier accepted entries. */
  lemma FitsAt(s: Store, entries: seq<Fields>, r: Run, m: nat, n: nat)
    requires m < |r.report.errors| && r.report.errors[m].index < |entries|
    requires |r.accepted| == |r.report.added| && n <= |r.accepted|
    requires forall k :: 0 <= k < n ==> r.accepted[k] < r.report.errors[m].index
    requires forall k :: n <= k < |r.accepted| ==> r.report.errors[m].index < r.accepted[k]
    requires Verdict(s + r.report.added[..n], entries[r.report.errors[m].index]) == Some(r.report.errors[m].reason)
    ensures ErrorFits(s, entries, r, m)
  {
  }

  lemma {:induction false} ProcessErrorsFit(s: Store, entries: seq<Fields>, from: nat, today: string)
    requires from <= |entries|
    ensures forall m :: 0 <= m < |Process(s, entries, from, today).report.errors| ==>
      ErrorFits(s, entries, Process(s, entries, from, today), m)
    decreases |entries| - from
  {
    if from < |entries| {
      if Verdict(s, entries[from]).Some? {
        ProcessSkipFits(s, entries, from, today);
      } else {
        ProcessTakeFits(s, entries, from, today);
      }
    }
  }

  lemma {:induction false} ProcessSkipFits(s: Store, entries: seq<Fields>, from: nat, today: string)
    requires from < |entries| && Verdict(s, entries[from]).Some?
    ensures forall m :: 0 <= m < |Process(s, entries, from, today).report.errors| ==>
      ErrorFits(s, entries, Process(s, entries, from, today), m)
    decreases |entries| - from, 0
  {
    var r := Process(s, entries, from, today);
    var rest := Process(s, entries, from + 1, today);
    ProcessErrorsFit(s, entries, from + 1, today);
    ProcessSkip(s, entries, from, today);
    forall m | 0 <= m < |r.report.errors| ensures ErrorFits(s, entries, r, m) {
      if m == 0 {
        assert s + r.report.added[..0] == s;
        FitsAt(s, entries, r, 0, 0);
      } else {
        assert r.report.errors[m] == rest.report.errors[m - 1];
        assert ErrorFits(s, entries, rest, m - 1);
      }
    }
  }

  lemma {:induction false} ProcessTakeFits(s: Store, entries: seq<Fields>, from: nat, today: string)
    requires from < |entries| && Verdict(s, entries[from]).None?
    ensures forall m :: 0 <= m < |Process(s, entries, from, today).report.errors| ==>
      ErrorFits(s, entries, Process(s, entries, from, today), m)
    decreases |entries| - from, 0
  {
    var st := BulkStudent(s, entries[from], today);
    var rest := Process(s + [st], entries, from + 1, today);
    ProcessErrorsFit(s + [st], entries, from + 1, today);
    ProcessTake(s, entries, from, today);
    forall m | 0 <= m < |rest.report.errors|
      ensures ErrorFits(s, entries, Run(Report([st] + rest.report.added, rest.report.errors), rest.store, [from] + rest.accepted), m)
    {
      ConsFits(s, st, entries, from, rest, m);
    }
  }

  /** Prepending an accepted entry `from` to a run from `s + [st]` shifts
      every error's count of earlier accepted entries by one. */
  lemma ConsFits(s: Store, st: Student, entries: seq<Fields>, from: nat, rest: Run, m: nat)
    requires ErrorFits(s + [st], entries, rest, m) && from < rest.report.errors[m].index
    ensures ErrorFits(s, entries, Run(Report([st] + rest.report.added, rest.report.errors), rest.store, [from] + rest.accepted), m)
  {
    var r := Run(Report([st] + rest.report.added, rest.report.errors), rest.store, [from] + rest.accepted);
    var j := rest.report.errors[m].index;
    var n :| 0 <= n <= |rest.accepted|
      && (forall k :: 0 <= k < n ==> rest.accepted[k] < j)
      && (forall k :: n <= k < |rest.accepted| ==> j < rest.accepted[k])
      && Verdict((s + [st]) + rest.report.added[..n], entries[j]) == Some(rest.report.errors[m].reason);
    assert r.report.added[..n + 1] == [st] + rest.report.added[..n];
    assert (s + [st]) + rest.report.added[..n] == s + r.report.added[..n + 1];
    assert forall k :: 1 <= k < |r.accepted| ==> r.accepted[k] == rest.accepted[k - 1];
    FitsAt(s, entries, r, m, n + 1);
  }

  /** Each error carries the first check its entry fails, and a duplicate
      is reported only when the e-mail is taken, ignoring case, in the
      collection the batch started from or by a record added from an
      earlier entry of the batch. */
  lemma ProcessReasons(s: Store, entries: seq<Fields>, from: nat, today: string)
    requires from <= |entries|
    ensures var r := Process(s, entries, from, today);
      forall k :: 0 <= k < |r.report.errors| ==>
        ReasonFits(entries[r.report.errors[k].index], r.report.errors[k].reason)
    ensures var r := Process(s, entries, from, today);
      forall k :: 0 <= k < |r.report.errors| && r.report.errors[k].reason == EmailExists ==>
        var j := r.report.errors[k].index;
        var e := entries[j].email.value;
        || EmailTaken(s, e)
        || exists a :: 0 <= a < |r.accepted| && r.accepted[a] < j
             && Lower(r.report.added[a].email) == Lower(e)
  {
    var r := Process(s, entries, from, today);
    ProcessErrorsFit(s, entries, from, today);
    forall k | 0 <= k < |r.report.errors|
      ensures ReasonFits(entries[r.report.errors[k].index], r.report.errors[k].reason)
      ensures r.report.errors[k].reason == EmailExists ==>
        var j := r.report.errors[k].index;
        var e := entries[j].email.value;
        || EmailTaken(s, e)
        || exists a :: 0 <= a < |r.accepted| && r.accepted[a] < j
             && Lower(r.report.added[a].email) == Lower(e)
    {
      FitReason(s, entries, r, k);
    }
  }

  /** One error of `ProcessReasons`, for any run whose error fits. */
  lemma FitReason(s: Store, entries: seq<Fields>, r: Run, k: nat)
    requires ErrorFits(s, entries, r, k)
    ensures ReasonFits(entries[r.report.errors[k].index], r.report.errors[k].reason)
    ensures r.report.errors[k].reason == EmailExists ==>
      var j := r.report.errors[k].index;
      var e := entries[j].email.value;
      || EmailTaken(s, e)
      || exists a :: 0 <= a < |r.accepted| && r.accepted[a] < j
           && Lower(r.report.added[a].email) == Lower(e)
  {
    var j := r.report.errors[k].index;
    var n :| 0 <= n <= |r.accepted|
      && (forall a :: 0 <= a < n ==> r.accepted[a] < j)
      && (forall a :: n <= a < |r.accepted| ==> j < r.accepted[a])
      && Verdict(s + r.report.added[..n], entries[j]) == Some(r.report.errors[k].reason);
    VerdictFits(s + r.report.added[..n], entries[j]);
    if r.report.errors[k].reason == EmailExists {
      var e := entries[j].email.value;
      var t := s + r.report.added[..n];
      var i :| 0 <= i < |t| && Lower(t[i].email) == Lower(e);
      if i >= |s| {
        assert t[i] == r.report.added[i - |s|];
      } else {
        assert t[i] == s[i];
      }
    }
  }

  /** An entry that passes every check does not fail on its own. */
  lemma PassingNotRejected(s: Store, e: Fields)
    requires Verdict(s, e).None?
    ensures !FormatRejected(e)
  {
  }

  /** Every entry that fails on its own is among the errors. */
  lemma {:induction false} ProcessReportsRejected(s: Store, entries: seq<Fields>, from: nat, today: string)
    requires from <= |entries|
    ensures var r := Process(s, entries, from, today);
      forall j :: from <= j < |entries| && FormatRejected(entries[j]) ==> Reported(r.report.errors, j)
    decreases |entries| - from
  {
    if from < |entries| {
      var e := entries[from];
      if Verdict(s, e).Some? {
        ProcessSkipReports(s, entries, from, today);
      } else {
        var st := BulkStudent(s, e, today);
        ProcessReportsRejected(s + [st], entries, from + 1, today);
        ProcessTake(s, entries, from, today);
        PassingNotRejected(s, e);
      }
    }
  }

  /** The skipping case of `ProcessReportsRejected`: the failing entry is
      reported first, and the later ones keep their places one further on. */
  lemma {:induction false} ProcessSkipReports(s: Store, entries: seq<Fields>, from: nat, today: string)
    requires from < |entries| && Verdict(s, entries[from]).Some?
    ensures var r := Process(s, entries, from, today);
      forall j :: from <= j < |entries| && FormatRejected(entries[j]) ==> Reported(r.report.errors, j)
    decreases |entries| - from, 0
  {
    var errors := Process(s, entries, from, today).report.errors;
    var rest := Process(s, entries, from + 1, today).report.errors;
    ProcessReportsRejected(s, entries, from + 1, today);
    ProcessSkip(s, entries, from, today);
    assert errors == [EntryError(from, Verdict(s, entries[from]).value)] + rest;
    forall j | from <= j < |entries| && FormatRejected(entries[j])
      ensures Reported(errors, j)
    {
      if j == from {
        assert errors[0].index == j;
      } else {
        var k :| 0 <= k < |rest| && rest[k].index == j;
        assert errors[k + 1].index == j;
      }
    }
  }

  /** Added record `k` of a run from `s` is its entry turned into a record
      against the collection as it stood when that entry was reached: `s`
      plus the records added before it. */
  predicate AddedFits(s: Store, entries: seq<Fields>, r: Run, k: nat, today: string) {
    && k < |r.report.added| && |r.accepted| == |r.report.added| && r.accepted[k] < |entries|
    && Verdict(s + r.report.added[..k], entries[r.accepted[k]]).None?
    && r.report.added[k] == BulkStudent(s + r.report.added[..k], entries[r.accepted[k]], today)
  }

  lemma {:induction false} ProcessAddedFit(s: Store, entries: seq<Fields>, from: nat, today: string)
    requires from <= |entries|
    ensures forall k :: 0 <= k < |Process(s, entries, from, today).report.added| ==>
      AddedFits(s, entries, Process(s, entries, from, today), k, today)
    decreases |entries| - from
  {
    if from < |entries| {
      var e := entries[from];
      if Verdict(s, e).Some? {
        var rest := Process(s, entries, from + 1, today);
        ProcessAddedFit(s, entries, from + 1, today);
        ProcessSkip(s, entries, from, today);
        var r := Process(s, entries, from, today);
        forall k | 0 <= k < |r.report.added| ensures AddedFits(s, entries, r, k, today) {
          assert AddedFits(s, entries, rest, k, today);
        }
      } else {
        var st := BulkStudent(s, e, today);
        var rest := Process(s + [st], entries, from + 1, today);
        ProcessAddedFit(s + [st], entries, from + 1, today);
        ProcessTake(s, entries, from, today);
        var r := Run(Report([st] + rest.report.added, rest.report.errors), rest.store, [from] + rest.accepted);
        forall k | 0 <= k < |r.report.added| ensures AddedFits(s, entries, r, k, today) {
          if k == 0 {
            assert s + r.report.added[..0] == s;
          } else {
            ConsAdded(s, st, entries, from, rest, k - 1, today);
          }
        }
      }
    }
  }

  /** Prepending an accepted entry keeps every later added record's fit. */
  lemma ConsAdded(s: Store, st: Student, entries: seq<Fields>, from: nat, rest: Run, k: nat, today: string)
    requires AddedFits(s + [st], entries, rest, k, today)
    ensures AddedFits(s, entries, Run(Report([st] + rest.report.added, rest.report.errors), rest.store, [from] + rest.accepted), k + 1, today)
  {
    var r := Run(Report([st] + rest.report.added, rest.report.errors), rest.store, [from] + rest.accepted);
    assert r.report.added[..k + 1] == [st] + rest.report.added[..k];
    assert (s + [st]) + rest.report.added[..k] == s + r.report.added[..k + 1];
    assert r.accepted[k + 1] == rest.accepted[k] && r.report.added[k + 1] == rest.report.added[k];
  }

  /** Each added record is its entry turned into a record against the
      collection as it stood when that entry was reached (`s` plus the
      records added before it): the entry's names, e-mail and age, its
      grade upper-cased, its subjects or none, the id `generateNewId` gives
      that collection, today's date, and isActive true. */
  lemma ProcessAdded(s: Store, entries: seq<Fields>, from: nat, today: string)
    requires from <= |entries|
    ensures var r := Process(s, entries, from, today);
      forall k :: 0 <= k < |r.report.added| ==>
        && Verdict(s + r.report.added[..k], entries[r.accepted[k]]).None?
        && r.report.added[k] == BulkStudent(s + r.report.added[..k], entries[r.accepted[k]], today)
        && r.report.added[k].id == NewId(s + r.report.added[..k])
    ensures var added := Process(s, entries, from, today).report.added;
      forall k :: 0 <= k < |added| ==> added[k].isActive && added[k].enrollmentDate == today
    ensures var added := Process(s, entries, from, today).report.added;
      forall k, m :: 0 <= k < |added| && 0 <= m < |s| ==> s[m].id < added[k].id
  {
    var r := Process(s, entries, from, today);
    ProcessAddedFit(s, entries, from, today);
    forall k, m | 0 <= k < |r.report.added| && 0 <= m < |s|
      ensures s[m].id < r.report.added[k].id
    {
      assert AddedFits(s, entries, r, k, today);
      assert (s + r.report.added[..k])[m] == s[m];
    }
    forall k | 0 <= k < |r.report.added|
      ensures Verdict(s + r.report.added[..k], entries[r.accepted[k]]).None?
      ensures r.report.added[k] == BulkStudent(s + r.report.added[..k], entries[r.accepted[k]], today)
      ensures r.report.added[k].id == NewId(s + r.report.added[..k])
    {
      assert AddedFits(s, entries, r, k, today);
    }
  }

  /** An entry that fails no check on its own, and whose e-mail, ignoring
      case, is held neither by the collection nor by any other entry still
      to come, is never reported and becomes its own added record. */
  lemma ProcessAddsFresh(s: Store, entries: seq<Fields>, from: nat, today: string, j: nat)
    requires from <= j < |entries| && !FormatRejected(entries[j])
    requires !EmailTaken(s, entries[j].email.value)
    requires forall i :: from <= i < |entries| && i != j && entries[i].email.Some? ==>
               Lower(entries[i].email.value) != Lower(entries[j].email.value)
    ensures !Reported(Process(s, entries, from, today).report.errors, j)
    ensures var r := Process(s, entries, from, today);
      exists k :: 0 <= k < |r.report.added| && r.accepted[k] == j
        && r.report.added[k] == BulkStudent(s + r.report.added[..k], entries[j], today)
  {
    var r := Process(s, entries, from, today);
    ProcessErrorsFit(s, entries, from, today);
    ProcessAddedFit(s, entries, from, today);
    ProcessPartition(s, entries, from, today);
    if Reported(r.report.errors, j) {
      var m :| 0 <= m < |r.report.errors| && r.report.errors[m].index == j;
      FreshNotReported(s, entries, from, today, j, m);
      assert false;
    }
    assert j in r.accepted;
    var k :| 0 <= k < |r.accepted| && r.accepted[k] == j;
    assert AddedFits(s, entries, r, k, today);
  }

  /** The step of `ProcessAddsFresh` that rules out error `m`: its entry
      would have to clash with the collection or with an earlier record,
      and neither holds the e-mail. */
  lemma FreshNotReported(s: Store, entries: seq<Fields>, from: nat, today: string, j: nat, m: nat)
    requires from <= j < |entries| && !FormatRejected(entries[j])
    requires !EmailTaken(s, entries[j].email.value)
    requires forall i :: from <= i < |entries| && i != j && entries[i].email.Some? ==>
               Lower(entries[i].email.value) != Lower(entries[j].email.value)
    requires m < |Process(s, entries, from, today).report.errors|
    ensures Process(s, entries, from, today).report.errors[m].index != j
  {
    var r := Process(s, entries, from, today);
    var e := entries[j].email.value;
    ProcessReasons(s, entries, from, today);
    ProcessAddedFit(s, entries, from, today);
    forall a | 0 <= a < |r.accepted| && r.accepted[a] != j
      ensures Lower(r.report.added[a].email) != Lower(e)
    {
      assert AddedFits(s, entries, r, a, today);
    }
    if r.report.errors[m].index == j {
      assert false;
    }
  }

  /** Checking each entry against the collection as it grows keeps e-mails
      unique ignoring case (within the batch too) and ids unique. */
  lemma {:induction false} ProcessKeepsUnique(s: Store, entries: seq<Fields>, from: nat, today: string)
    requires from <= |entries|
    ensures UniqueIds(s) ==> UniqueIds(Process(s, entries, from, today).store)
    ensures UniqueEmails(s) ==> UniqueEmails(Process(s, entries, from, today).store)
    decreases |entries| - from
  {
    if from < |entries| {
      var e := entries[from];
      if Verdict(s, e).None? {
        var st := BulkStudent(s, e, today);
        AppendKeepsUnique(s, st);
        ProcessKeepsUnique(s + [st], entries, from + 1, today);
      } else {
        ProcessKeepsUnique(s, entries, from + 1, today);
      }
    }
  }

  /** `POST /bulk`: a body that is not an array is an invalid argument and
      changes nothing; otherwise the collection grows by exactly the added
      records, the errors come in entry order, each error is the verdict on
      its entry against the collection as it had grown, each added record is
      a passing entry turned into a record there, and both uniqueness
      invariants survive. */
  function CreateBulk(s: Store, body: Body, today: string): (r: Step<Report>)
    ensures r.reply.Failure? <==> body.NotAnArray?
    ensures r.reply.Failure? ==> r.reply.error == InvalidArgument && r.store == s
    ensures r.reply.Success? ==>
      && |r.reply.value.added| + |r.reply.value.errors| == |body.entries|
      && r.store == s + r.reply.value.added
      && (forall k :: 0 <= k < |r.reply.value.errors| ==>
            && r.reply.value.errors[k].index < |body.entries|
            && ReasonFits(body.entries[r.reply.value.errors[k].index], r.reply.value.errors[k].reason))
      && (forall a, b :: 0 <= a < b < |r.reply.value.errors| ==>
            r.reply.value.errors[a].index < r.reply.value.errors[b].index)
      && (forall j :: 0 <= j < |body.entries| && FormatRejected(body.entries[j]) ==>
            Reported(r.reply.value.errors, j))
      && (forall k :: 0 <= k < |r.reply.value.errors| ==>
            ErrorExplained(s, body.entries, r.reply.value.added, r.reply.value.errors[k]))
      && (forall k :: 0 <= k < |r.reply.value.added| ==>
            AddedExplained(s, body.entries, r.reply.value.added, k, today))
      && (exists acc :: Accounted(s, body.entries, Run(r.reply.value, r.store, acc), today))
    ensures UniqueIds(s) ==> UniqueIds(r.store)
    ensures UniqueEmails(s) ==> UniqueEmails(r.store)
  {
    match body
    case NotAnArray => Step(Failure(InvalidArgument), s)
    case Entries(entries) =>
      var run := Process(s, entries, 0, today);
      ProcessKeepsUnique(s, entries, 0, today);
      ProcessReasons(s, entries, 0, today);
      ProcessReportsRejected(s, entries, 0, today);
      ProcessSummary(s, entries, today);
      ProcessAccountedFor(s, entries, today);
      Step(Success(run.report), run.store)
  }

  /** `r` accounts for the whole batch in entry order, with `r.accepted`
      naming the entry of each added record: the accepted indices are in
      range and increasing, every index is accepted or reported but not
      both, every error is the first failing check of its entry against the
      collection plus exactly the records accepted before it, and every
      added record is its entry turned into a record there. */
  predicate Accounted(s: Store, entries: seq<Fields>, r: Run, today: string) {
    && |r.accepted| == |r.report.added|
    && (forall k :: 0 <= k < |r.accepted| ==> r.accepted[k] < |entries|)
    && (forall a, b :: 0 <= a < b < |r.accepted| ==> r.accepted[a] < r.accepted[b])
    && (forall j :: 0 <= j < |entries| ==> (j in r.accepted <==> !Reported(r.report.errors, j)))
    && (forall m :: 0 <= m < |r.report.errors| ==> ErrorFits(s, entries, r, m))
    && (forall k :: 0 <= k < |r.report.added| ==> AddedFits(s, entries, r, k, today))
  }

  /** The run of the whole batch is accounted for by its own accepted
      indices, so the reply and store alone admit such a witness. */
  lemma ProcessAccountedFor(s: Store, entries: seq<Fields>, today: string)
    ensures exists acc :: Accounted(s, entries,
      Run(Process(s, entries, 0, today).report, Process(s, entries, 0, today).store, acc), today)
  {
    var r := Process(s, entries, 0, today);
    ProcessPartition(s, entries, 0, today);
    ProcessErrorsFit(s, entries, 0, today);
    ProcessAddedFit(s, entries, 0, today);
    assert Run(r.report, r.store, r.accepted) == r;
    assert forall j :: 0 <= j < |entries| ==> (j in r.accepted <==> !Reported(r.report.errors, j));
    assert Accounted(s, entries, r, today);
  }

  /** Error `e` carries the verdict on its entry against the collection
      plus some prefix of the added records. */
  predicate ErrorExplained(s: Store, entries: seq<Fields>, added: seq<Student>, e: EntryError) {
    && e.index < |entries|
    && exists n :: 0 <= n <= |added| && Verdict(s + added[..n], entries[e.index]) == Some(e.reason)
  }

  /** Added record `k` is some entry that passed against the collection
      plus the records added before it, turned into a record there. */
  predicate AddedExplained(s: Store, entries: seq<Fields>, added: seq<Student>, k: nat, today: string) {
    && k < |added|
    && exists j :: 0 <= j < |entries|
         && Verdict(s + added[..k], entries[j]).None?
         && added[k] == BulkStudent(s + added[..k], entries[j], today)
  }

  /** What `CreateBulk` reports, without the accepted indices. */
  lemma ProcessSummary(s: Store, entries: seq<Fields>, today: string)
    ensures forall k :: 0 <= k < |Process(s, entries, 0, today).report.errors| ==>
      ErrorExplained(s, entries, Process(s, entries, 0, today).report.added,
                     Process(s, entries, 0, today).report.errors[k])
    ensures forall k :: 0 <= k < |Process(s, entries, 0, today).report.added| ==>
      AddedExplained(s, entries, Process(s, entries, 0, today).report.added, k, today)
  {
    ProcessErrorsFit(s, entries, 0, today);
    ProcessAddedFit(s, entries, 0, today);
    ForgetAccepted(s, entries, Process(s, entries, 0, today), today);
  }

  /** Dropping the accepted indices from `ErrorFits` and `AddedFits`. */
  lemma ForgetAccepted(s: Store, entries: seq<Fields>, r: Run, today: string)
    requires forall m :: 0 <= m < |r.report.errors| ==> ErrorFits(s, entries, r, m)
    requires forall k :: 0 <= k < |r.report.added| ==> AddedFits(s, entries, r, k, today)
    ensures forall k :: 0 <= k < |r.report.errors| ==>
      ErrorExplained(s, entries, r.report.added, r.report.errors[k])
    ensures forall k :: 0 <= k < |r.report.added| ==> AddedExplained(s, entries, r.report.added, k, today)
  {
    forall k | 0 <= k < |r.report.errors|
      ensures ErrorExplained(s, entries, r.report.added, r.report.errors[k])
    {
      var i := r.report.errors[k].index;
      assert ErrorFits(s, entries, r, k);
      var n :| 0 <= n <= |r.accepted|
        && (forall a :: 0 <= a < n ==> r.accepted[a] < i)
        && (forall a :: n <= a < |r.accepted| ==> i < r.accepted[a])
        && Verdict(s + r.report.added[..n], entries[i]) == Some(r.report.errors[k].reason);
    }
    forall k | 0 <= k < |r.report.added|
      ensures AddedExplained(s, entries, r.report.added, k, today)
    {
      assert AddedFits(s, entries, r, k, today);
      var j := r.accepted[k];
      assert Verdict(s + r.report.added[..k], entries[j]).None?;
    }
  }

  /** An entry that fails no check on its own, and whose e-mail, ignoring
      case, is held neither by the collection nor by any other entry of the
      batch, is not among the errors and is appended. */
  lemma BulkAddsFresh(s: Store, entries: seq<Fields>, today: string, j: nat)
    requires j < |entries| && !FormatRejected(entries[j])
    requires !EmailTaken(s, entries[j].email.value)
    requires forall i :: 0 <= i < |entries| && i != j && entries[i].email.Some? ==>
               Lower(entries[i].email.value) != Lower(entries[j].email.value)
    ensures var r := CreateBulk(s, Entries(entries), today);
      && r.reply.Success?
      && !Reported(r.reply.value.errors, j)
      && exists k :: 0 <= k < |r.reply.value.added|
           && r.reply.value.added[k] == BulkStudent(s + r.reply.value.added[..k], entries[j], today)
  {
    ProcessAddsFresh(s, entries, 0, today, j);
  }

  /** A request the create route's validator accepts passes the bulk
      route's presence and format checks, the two routes agree on whether
      its e-mail is taken, and the record bulk appends is the one create
      appends when isActive is true. */
  lemma BulkAgreesWithCreate(s: Store, e: Fields, today: string)
    requires ValidateStudent(e)
    ensures !FormatRejected(e)
    ensures Verdict(s, e).None? <==> Updates.Create(s, e, today).reply.Success?
    ensures Verdict(s, e).None? ==>
      Updates.Create(s, e.(isActive := Some(true)), today).reply == Success(BulkStudent(s, e, today))
  {
    OnlyFiveFields(e, e.subjects, Some(true));
  }
}

=== FILE: examples.dfy ===
/** Worked cases on concrete collections: the repository's seed records
    (data/students.js) and small hand-made ones. */
module Examples {
  import opened Text
  import opened Records
  import opened Validation
  import opened Queries
  import opened Updates
  import opened Bulk

  /** The four seed records; the third carries the lower-case grade "c". */
  const Seed: Store := [
    Student(1, "John", "Doe", "john.doe@school.com", 20, "A",
            ["Math", "Physics", "Chemistry"], "2024-01-15", true),
    Student(2, "mike", "rop", "mike.rop@school.com", 22, "B",
            ["biology", "Chemistry"], "2022-02-15", true),
    Student(3, "collo", "igwe", "collo.igwe@school.com", 24, "c",
            ["Geography", "Agriculture"], "2020-02-15", false),
    Student(4, "Emma", "kin", "emma.kin@school.com", 18, "A",
            ["History", "Art"], "2024-01-10", true)
  ]

  lemma SeedIdsUnique()
    ensures UniqueIds(Seed)
  {
  }

  /** Adding the `n`-th record to the distribution of the first `n - 1`. */
  lemma HistogramPrefix(s: Store, n: nat, h: map<string, nat>)
    requires 0 < n <= |s| && Histogram(s[..n - 1]) == h
    ensures Histogram(s[..n]) == Bump(h, s[n - 1].grade)
  {
    var t := s[..n];
    assert t[..|t| - 1] == s[..n - 1];
    HistogramSnoc(t);
  }

  lemma DistributionOfOne(s: Store)
    requires |s| == 4 && s[0].grade == "A"
    ensures Histogram(s[..1]) == map["A" := 1]
  {
    assert s[..0] == [];
    HistogramPrefix(s, 1, map[]);
  }

  lemma DistributionOfTwo(s: Store)
    requires |s| == 4 && s[0].grade == "A" && s[1].grade == "B"
    ensures Histogram(s[..2]) == map["A" := 1, "B" := 1]
  {
    DistributionOfOne(s);
    HistogramPrefix(s, 2, map["A" := 1]);
  }

  lemma DistributionOfThree(s: Store)
    requires |s| == 4 && s[0].grade == "A" && s[1].grade == "B" && s[2].grade == "c"
    ensures Histogram(s[..3]) == map["A" := 1, "B" := 1, "c" := 1]
  {
    DistributionOfTwo(s);
    HistogramPrefix(s, 3, map["A" := 1, "B" := 1]);
  }

  /** Grade distribution of four records graded A, B, c, A: the
      lower-case grade is counted under its own key. */
  lemma DistributionOfFour(s: Store)
    requires |s| == 4
    requires s[0].grade == "A" && s[1].grade == "B" && s[2].grade == "c" && s[3].grade == "A"
    ensures Histogram(s) == map["A" := 2, "B" := 1, "c" := 1]
  {
    var h3 := map["A" := 1, "B" := 1, "c" := 1];
    assert "A" in h3 && h3["A"] + 1 == 2;
    assert h3["A" := 2] == map["A" := 2, "B" := 1, "c" := 1];
    DistributionOfThree(s);
    assert s[..|s| - 1] == s[..3];
    HistogramSnoc(s);
  }

  /** Active count of four records of which only the third is inactive. */
  lemma ActiveOfFour(s: Store)
    requires |s| == 4
    requires s[0].isActive && s[1].isActive && !s[2].isActive && s[3].isActive
    ensures |Keep(s, (st: Student) => st.isActive)| == 3
  {
    var isActive := (st: Student) => st.isActive;
    assert s[3..][1..] == [];
    assert |Keep(s[3..], isActive)| == 1;
    assert s[2..][1..] == s[3..];
    assert |Keep(s[2..], isActive)| == 1;
    assert s[1..][1..] == s[2..];
    assert |Keep(s[1..], isActive)| == 2;
    KeepSame(s, isActive, (st: Student) => st.isActive);
  }

  /** Statistics of the seed: four records, three active, and its
      lower-case grade "c" counted under its own key. */
  lemma SeedStats()
    ensures GetStats(Seed) == Stats(4, 3, map["A" := 2, "B" := 1, "c" := 1])
  {
    DistributionOfFour(Seed);
    ActiveOfFour(Seed);
  }

  /** The seed's "c" record is never returned by a grade query: asking for
      "c" looks for "C". */
  lemma SeedLowerCaseGradeHidden()
    ensures forall g :: g != "" ==> Seed[2] !in List(Seed, Query(None, Some(g), None))
  {
    forall g | g != "" ensures Seed[2] !in List(Seed, Query(None, Some(g), None)) {
      if g != "" {
        LowerCaseGradeNeverListed(Seed, Query(None, Some(g), None), Seed[2]);
      }
    }
  }

  /** `byGrade("Z")` is an invalid argument; `byGrade("f")` is `byGrade("F")`. */
  lemma ByGradeLetters(s: Store)
    ensures ByGrade(s, "Z") == Failure(InvalidArgument)
    ensures ByGrade(s, "f").Success? && ByGrade(s, "f") == ByGrade(s, "F")
  {
    assert Upper("Z") == "Z";
    assert Upper("f") == "F";
    ByGradeCaseInsensitive(s, "f", "F");
  }

  /** The seed's ids are distinct, so looking up the second seed record's
      id returns exactly that record. */
  lemma SeedGetMike()
    ensures Get(Seed, 2) == Success(Seed[1])
  {
    SeedIdsUnique();
    GetStored(Seed, Seed[1]);
  }

  /** Searching for "chem" finds the record whose subjects include
      "Chemistry". */
  lemma SearchChem()
    ensures Search(Seed, Some("chem")).Success?
    ensures Seed[0] in Search(Seed, Some("chem")).value
  {
    var sub := Lower(Seed[0].subjects[2]);
    assert sub == "chemistry";
    assert Lower("chem") == "chem";
    assert "chem" <= sub[0..];
    assert Contains(sub, "chem");
    assert Hit(Lower("chem"), Seed[0]);
  }

  /** A minimal valid entry. */
  const Ann: Fields := Fields(Some("Ann"), Some("Lee"), Some("ann@x.io"), Some(20), Some("b"), None, None)

  lemma AnnEmailMatches()
    ensures EmailPattern("ann@x.io")
  {
    var s := "ann@x.io";
    EmailPatternIsShape(s);
    assert s[3] == '@' && s[5] == '.';
    assert NoSpace(s);
  }

  /** A batch with one valid entry and one without an age adds one record
      and reports the second entry, at index 1, as missing fields. */
  lemma BulkOneGoodOneMissing(today: string)
    ensures var r := CreateBulk([], Entries([Ann, Ann.(age := None)]), today);
      && r.reply.Success?
      && |r.reply.value.added| == 1
      && r.reply.value.errors == [EntryError(1, MissingFields)]
      && |r.store| == 1
      && r.store[0].id == 1 && r.store[0].grade == "B" && r.store[0].isActive
  {
    var entries := [Ann, Ann.(age := None)];
    var st := BulkStudent([], Ann, today);
    assert Verdict([], Ann).None? by {
      AnnEmailMatches();
    }
    assert Verdict([st], entries[1]) == Some(MissingFields);
    assert Process([st], entries, 2, today) == Run(Report([], []), [st], []);
    ProcessTake([], entries, 0, today);
    ProcessSkip([st], entries, 1, today);
    assert Upper("b") == "B";
  }

  /** Of two entries whose e-mails differ only in case, the first is added
      and the second, checked against the grown collection, is the
      duplicate reported at index 1. */
  lemma BulkLaterDuplicateReported(today: string)
    ensures var r := CreateBulk([], Entries([Ann, Ann.(email := Some("ANN@x.io"))]), today);
      && r.reply.Success?
      && r.reply.value.errors == [EntryError(1, EmailExists)]
      && |r.store| == 1 && r.store[0].email == "ann@x.io"
  {
    var entries := [Ann, Ann.(email := Some("ANN@x.io"))];
    var run := Process([], entries, 0, today);
    DuplicateRun(today);
    assert CreateBulk([], Entries(entries), today) == Step(Success(run.report), run.store);
  }

  /** The run behind `BulkLaterDuplicateReported`. */
  lemma DuplicateRun(today: string)
    ensures var st := BulkStudent([], Ann, today);
      Process([], [Ann, Ann.(email := Some("ANN@x.io"))], 0, today)
        == Run(Report([st], [EntryError(1, EmailExists)]), [st], [0])
  {
    var entries := [Ann, Ann.(email := Some("ANN@x.io"))];
    AnnPasses();
    var st := BulkStudent([], Ann, today);
    DuplicateRunTail(st, today);
    TakeFirst([], entries, today, Run(Report([], [EntryError(1, EmailExists)]), [st], []));
    assert [st] + [] == [st] && [0] + [] == [0];
  }

  /** `ProcessTake` at index 0, stated against a given rest of the run. */
  lemma TakeFirst(s: Store, entries: seq<Fields>, today: string, rest: Run)
    requires 0 < |entries| && Verdict(s, entries[0]).None?
    requires Process(s + [BulkStudent(s, entries[0], today)], entries, 1, today) == rest
    ensures Process(s, entries, 0, today)
      == Run(Report([BulkStudent(s, entries[0], today)] + rest.report.added, rest.report.errors),
             rest.store, [0] + rest.accepted)
  {
    ProcessTake(s, entries, 0, today);
  }

  /** `Ann` passes every bulk check against an empty collection. */
  lemma AnnPasses()
    ensures Verdict([], Ann) == None
  {
    AnnEmailMatches();
  }

  /** The second half of `DuplicateRun`: once "ann@x.io" is stored, the
      entry with "ANN@x.io" is reported at index 1. */
  lemma DuplicateRunTail(st: Student, today: string)
    requires st.email == "ann@x.io"
    ensures Process([st], [Ann, Ann.(email := Some("ANN@x.io"))], 1, today)
      == Run(Report([], [EntryError(1, EmailExists)]), [st], [])
  {
    var entries := [Ann, Ann.(email := Some("ANN@x.io"))];
    CaseVariantIsDuplicate(st);
    assert Process([st], entries, 2, today) == Run(Report([], []), [st], []);
    ProcessSkip([st], entries, 1, today);
  }

  /** Against a record holding "ann@x.io", the entry with "ANN@x.io" is a
      duplicate. */
  lemma CaseVariantIsDuplicate(st: Student)
    requires st.email == "ann@x.io"
    ensures Verdict([st], Ann.(email := Some("ANN@x.io"))) == Some(EmailExists)
  {
    UpperEmailMatches();
    assert Lower("ann@x.io") == "ann@x.io" && Lower("ANN@x.io") == "ann@x.io";
    assert EmailTaken([st], "ANN@x.io") by {
      assert [st][0] == st;
    }
  }

  /** The bulk route checks presence, e-mail format and duplicates only: a
      one-letter name, an age of 1 and the grade "z" are stored, as "Z", in
      a record the create route would have refused. */
  lemma BulkStoresUnvalidated(today: string)
    ensures var e := Ann.(firstName := Some("A"), age := Some(1), grade := Some("z"));
      var r := CreateBulk([], Entries([e]), today);
      && !ValidateStudent(e)
      && r.reply.Success? && |r.store| == 1
      && r.store[0].grade == "Z" && !WellFormed(r.store[0])
  {
    var e := Ann.(firstName := Some("A"), age := Some(1), grade := Some("z"));
    var st := BulkStudent([], e, today);
    UnvalidatedRun(today);
    var run := Process([], [e], 0, today);
    assert CreateBulk([], Entries([e]), today) == Step(Success(run.report), run.store);
    assert st.grade == "Z" by {
      assert Upper("z") == "Z";
    }
    assert !NameOk(st.firstName);
  }

  /** The run behind `BulkStoresUnvalidated`: the entry is added. */
  lemma UnvalidatedRun(today: string)
    ensures var e := Ann.(firstName := Some("A"), age := Some(1), grade := Some("z"));
      var st := BulkStudent([], e, today);
      Process([], [e], 0, today) == Run(Report([st], []), [st], [0])
  {
    var e := Ann.(firstName := Some("A"), age := Some(1), grade := Some("z"));
    var st := BulkStudent([], e, today);
    assert Verdict([], e).None? by {
      AnnEmailMatches();
    }
    assert Process([st], [e], 1, today) == Run(Report([], []), [st], []);
    TakeFirst([], [e], today, Run(Report([], []), [st], []));
    assert [st] + [] == [st] && [0] + [] == [0];
  }

  /** The partial update compares e-mails exactly, so two stored records
      can end up with e-mails equal up to case, which create and bulk
      would both refuse. */
  lemma UpdateAllowsCaseVariantEmail(today: string)
    ensures var s := [Student(1, "Ann", "Lee", "ann@x.io", 20, "B", [], today, true),
                      Student(2, "Bob", "Ray", "bob@x.io", 21, "C", [], today, true)];
      var r := UpdatePartial(s, 2, Fields(None, None, Some("ANN@x.io"), None, None, None, None));
      && UniqueEmails(s)
      && r.reply.Success?
      && !UniqueEmails(r.store)
  {
    var s := [Student(1, "Ann", "Lee", "ann@x.io", 20, "B", [], today, true),
              Student(2, "Bob", "Ray", "bob@x.io", 21, "C", [], today, true)];
    var e := "ANN@x.io";
    assert Lower("ann@x.io") == "ann@x.io" && Lower("bob@x.io") == "bob@x.io" && Lower(e) == "ann@x.io";
    assert UniqueEmails(s);
    UpperEmailMatches();
    assert HasId(s, 2) by {
      assert s[1].id == 2;
    }
    assert !EmailClash(s, 2, e);
    UpdateCaseVariantBreaksUnique(s, 2, e, 0);
  }

  lemma UpperEmailMatches()
    ensures EmailPattern("ANN@x.io")
  {
    var e := "ANN@x.io";
    EmailPatternIsShape(e);
    assert e[3] == '@' && e[5] == '.';
    assert NoSpace(e);
  }
}

=== FILE: queries.dfy ===
/** The read-only routes of the student router: list with filters, stats,
    search, by-grade and get-by-id. None of them changes the collection. */
module Queries {
  import opened Text
  import opened Records

  /** The query string of `GET /`: each parameter present or absent. */
  datatype Query = Query(active: Option<string>, grade: Option<string>, subject: Option<string>)

  /** JavaScript truthiness of an optional string: present and non-empty. */
  predicate Given(o: Option<string>) {
    o.Some? && o.value != ""
  }

  /** Some subject equals `subject` ignoring case. */
  predicate HasSubject(st: Student, subject: string) {
    exists k :: 0 <= k < |st.subjects| && Lower(st.subjects[k]) == Lower(subject)
  }

  predicate ActiveOk(q: Query, st: Student) {
    q.active.Some? ==> st.isActive == (q.active.value == "true")
  }

  predicate GradeOk(q: Query, st: Student) {
    Given(q.grade) ==> st.grade == Upper(q.grade.value)
  }

  predicate SubjectOk(q: Query, st: Student) {
    Given(q.subject) ==> HasSubject(st, q.subject.value)
  }

  /** A record passes every filter the query carries. */
  predicate Matches(q: Query, st: Student) {
    ActiveOk(q, st) && GradeOk(q, st) && SubjectOk(q, st)
  }

  /** `GET /`: the active filter, then the grade filter, then the subject
      filter, each applied only when its parameter is present (grade and
      subject: present and non-empty). The reply's `total` is `|r|`. */
  function List(s: Store, q: Query): (r: Store)
    ensures |r| <= |s|
    ensures forall x :: x in r <==> x in s && Matches(q, x)
  {
    var s1 := if q.active.Some? then Keep(s, (st: Student) => st.isActive == (q.active.value == "true")) else s;
    var s2 := if Given(q.grade) then Keep(s1, (st: Student) => st.grade == Upper(q.grade.value)) else s1;
    if Given(q.subject) then Keep(s2, (st: Student) => HasSubject(st, q.subject.value)) else s2
  }

  /** The three successive filters are one filter by the conjunction, so the
      result is the collection's subsequence of matching records, in order. */
  lemma ListIsOneFilter(s: Store, q: Query)
    ensures List(s, q) == Keep(s, (st: Student) => Matches(q, st))
  {
    var pa := (st: Student) => ActiveOk(q, st);
    var pg := (st: Student) => GradeOk(q, st);
    var ps := (st: Student) => SubjectOk(q, st);
    var pag := (st: Student) => ActiveOk(q, st) && GradeOk(q, st);
    var s1 := if q.active.Some? then Keep(s, (st: Student) => st.isActive == (q.active.value == "true")) else s;
    var s2 := if Given(q.grade) then Keep(s1, (st: Student) => st.grade == Upper(q.grade.value)) else s1;
    if q.active.Some? {
      KeepSame(s, (st: Student) => st.isActive == (q.active.value == "true"), pa);
    } else {
      KeepAll(s, pa);
    }
    assert s1 == Keep(s, pa);
    if Given(q.grade) {
      KeepSame(s1, (st: Student) => st.grade == Upper(q.grade.value), pg);
    } else {
      KeepAll(s1, pg);
    }
    KeepKeep(s, pa, pg, pag);
    assert s2 == Keep(s, pag);
    if Given(q.subject) {
      KeepSame(s2, (st: Student) => HasSubject(st, q.subject.value), ps);
    } else {
      KeepAll(s2, ps);
    }
    KeepKeep(s, pag, ps, (st: Student) => Matches(q, st));
  }

  /** With no filter the whole collection comes back. */
  lemma ListNoFilters(s: Store)
    ensures List(s, Query(None, None, None)) == s
  {
  }

  /** The grade filter compares against the upper-cased parameter, so `a`
      and `A` give the same list. */
  lemma ListGradeCaseInsensitive(s: Store, q: Query, g: string)
    requires q.grade.Some? && Lower(g) == Lower(q.grade.value)
    ensures List(s, q.(grade := Some(g))) == List(s, q)
  {
    UpperOfLowerEqual(g, q.grade.value);
    ListIsOneFilter(s, q);
    ListIsOneFilter(s, q.(grade := Some(g)));
    KeepSame(s, (st: Student) => Matches(q.(grade := Some(g)), st), (st: Student) => Matches(q, st));
  }

  /** Upper-casing never yields a lower-case letter, so a stored grade such
      as the seed's `"c"` is never selected by a grade filter. */
  lemma LowerCaseGradeNeverListed(s: Store, q: Query, st: Student)
    requires Given(q.grade)
    requires |st.grade| > 0 && 'a' <= st.grade[0] <= 'z'
    ensures st !in List(s, q)
  {
    var u := Upper(q.grade.value);
    assert u[0] == UpperChar(q.grade.value[0]);
    assert st.grade != u;
  }

  /** Number of records holding exactly grade `g`. */
  function CountGrade(s: Store, g: string): nat {
    if |s| == 0 then 0 else (if s[0].grade == g then 1 else 0) + CountGrade(s[1..], g)
  }

  lemma {:induction false} CountGradeSnoc(s: Store, g: string)
    requires |s| > 0
    ensures CountGrade(s, g) == CountGrade(s[..|s| - 1], g) + (if s[|s| - 1].grade == g then 1 else 0)
  {
    if |s| > 1 {
      assert s[1..][..|s[1..]| - 1] == s[..|s| - 1][1..];
      CountGradeSnoc(s[1..], g);
    }
  }

  /** Count one more holder of grade `g`. */
  function Bump(h: map<string, nat>, g: string): map<string, nat> {
    h[g := (if g in h then h[g] else 0) + 1]
  }

  /** The `reduce` that builds `gradeDistribution`, one record at a time from
      the front: each stored grade string is a key, counting its holders. */
  function Histogram(s: Store): (h: map<string, nat>)
    ensures forall g :: g in h <==> exists k :: 0 <= k < |s| && s[k].grade == g
    ensures forall g :: g in h ==> h[g] == CountGrade(s, g)
    decreases |s|
  {
    if |s| == 0 then map[]
    else
      var h := Histogram(s[..|s| - 1]);
      var g := s[|s| - 1].grade;
      CountGradeSnoc(s, g);
      assert g !in h ==> CountGrade(s[..|s| - 1], g) == 0 by {
        if g !in h {
          CountGradeZero(s[..|s| - 1], g);
        }
      }
      assert forall k :: 0 <= k < |s| - 1 ==> s[..|s| - 1][k] == s[k];
      assert forall x :: x != g ==> CountGrade(s, x) == CountGrade(s[..|s| - 1], x) by {
        forall x | x != g ensures CountGrade(s, x) == CountGrade(s[..|s| - 1], x) {
          CountGradeSnoc(s, x);
        }
      }
      Bump(h, g)
  }

  /** One more record adds one to its grade's entry. */
  lemma HistogramSnoc(s: Store)
    requires |s| > 0
    ensures Histogram(s) == Bump(Histogram(s[..|s| - 1]), s[|s| - 1].grade)
  {
  }

  lemma {:induction false} CountGradeZero(s: Store, g: string)
    requires forall k :: 0 <= k < |s| ==> s[k].grade != g
    ensures CountGrade(s, g) == 0
  {
    if |s| > 0 {
      assert forall k :: 0 <= k < |s| - 1 ==> s[1..][k] == s[k + 1];
      CountGradeZero(s[1..], g);
    }
  }

  /** The response of `GET /stats`. */
  datatype Stats = Stats(totalStudents: nat, activeStudents: nat, gradeDistribution: map<string, nat>)

  function GetStats(s: Store): (r: Stats)
    ensures r.totalStudents == |s|
    ensures r.activeStudents <= r.totalStudents
    ensures forall g :: g in r.gradeDistribution ==> 0 < r.gradeDistribution[g] <= r.totalStudents
    ensures forall k :: 0 <= k < |s| ==> s[k].grade in r.gradeDistribution
  {
    var h := Histogram(s);
    assert forall g :: g in h ==> 0 < h[g] <= |s| by {
      forall g | g in h ensures 0 < h[g] <= |s| {
        var k :| 0 <= k < |s| && s[k].grade == g;
        CountGradePositive(s, g, k);
      }
    }
    Stats(|s|, |Keep(s, (st: Student) => st.isActive)|, h)
  }

  lemma {:induction false} CountGradePositive(s: Store, g: string, k: nat)
    requires k < |s| && s[k].grade == g
    ensures 0 < CountGrade(s, g) <= |s|
  {
    CountGradeAtMost(s, g);
    if k > 0 {
      CountGradePositive(s[1..], g, k - 1);
    }
  }

  lemma {:induction false} CountGradeAtMost(s: Store, g: string)
    ensures CountGrade(s, g) <= |s|
  {
    if |s| > 0 {
      CountGradeAtMost(s[1..], g);
    }
  }

  ghost function PickKey(m: map<string, nat>): (k: string)
    requires |m| > 0
    ensures k in m
  {
    var k :| k in m; k
  }

  /** Sum of the values of a map, taking its keys in an arbitrary order. */
  ghost function SumValues(m: map<string, nat>): nat
    decreases |m|
  {
    if |m| == 0 then 0
    else
      var k := PickKey(m);
      RemoveSize(m, k);
      m[k] + SumValues(m - {k})
  }

  lemma RemoveSize(m: map<string, nat>, k: string)
    requires k in m
    ensures |m - {k}| == |m| - 1
  {
    assert (m - {k}).Keys == m.Keys - {k};
  }

  /** Any key may be taken first: the sum does not depend on the order. */
  lemma {:induction false} SumValuesRemove(m: map<string, nat>, x: string)
    requires x in m
    ensures SumValues(m) == m[x] + SumValues(m - {x})
    decreases |m|
  {
    var k := PickKey(m);
    if k != x {
      var mk, mx := m - {k}, m - {x};
      var rest := mk - {x};
      RemoveSize(m, k);
      RemoveSize(m, x);
      assert x in mk && mk[x] == m[x];
      assert k in mx && mx[k] == m[k];
      assert mx - {k} == rest;
      SumValuesRemove(mk, x);
      SumValuesRemove(mx, k);
    }
  }

  /** Bumping `g` touches no other key. */
  lemma BumpRest(h: map<string, nat>, g: string)
    ensures g in Bump(h, g) && Bump(h, g)[g] == (if g in h then h[g] else 0) + 1
    ensures Bump(h, g) - {g} == h - {g}
    ensures g !in h ==> h - {g} == h
  {
  }

  /** Counting one more holder of `g` adds one to the sum. */
  lemma SumIncrement(h: map<string, nat>, g: string)
    ensures SumValues(Bump(h, g)) == SumValues(h) + 1
  {
    BumpRest(h, g);
    SumValuesRemove(Bump(h, g), g);
    if g in h {
      SumValuesRemove(h, g);
    }
  }

  lemma {:induction false} HistogramSum(s: Store)
    ensures SumValues(Histogram(s)) == |s|
    decreases |s|
  {
    if |s| > 0 {
      var h := Histogram(s[..|s| - 1]);
      var g := s[|s| - 1].grade;
      HistogramSum(s[..|s| - 1]);
      HistogramSnoc(s);
      SumIncrement(h, g);
    }
  }

  /** The grade distribution's counts add up to the total. */
  lemma StatsDistributionSums(s: Store)
    ensures SumValues(GetStats(s).gradeDistribution) == GetStats(s).totalStudents
  {
    HistogramSum(s);
  }

  lemma {:induction false} KeepCountGrade(s: Store, g: string)
    ensures |Keep(s, (st: Student) => st.grade == g)| == CountGrade(s, g)
  {
    if |s| > 0 {
      KeepCountGrade(s[1..], g);
    }
  }

  lemma {:induction false} KeepComplement(s: Store, p: Student -> bool, np: Student -> bool)
    requires forall x :: np(x) == !p(x)
    ensures |Keep(s, p)| + |Keep(s, np)| == |s|
  {
    if |s| > 0 {
      KeepComplement(s[1..], p, np);
    }
  }

  /** The statistics agree with the list route: the active count is the
      size of `?active=true`, the inactive rest the size of `?active=false`,
      and each letter's count the size of `?grade=<letter>`. */
  lemma StatsAgreeWithList(s: Store, g: string)
    requires g in Grades
    ensures GetStats(s).activeStudents == |List(s, Query(Some("true"), None, None))|
    ensures GetStats(s).totalStudents - GetStats(s).activeStudents
            == |List(s, Query(Some("false"), None, None))|
    ensures (if g in GetStats(s).gradeDistribution then GetStats(s).gradeDistribution[g] else 0)
            == |List(s, Query(None, Some(g), None))|
  {
    var active := (st: Student) => st.isActive;
    KeepSame(s, (st: Student) => st.isActive == ("true" == "true"), active);
    KeepComplement(s, active, (st: Student) => st.isActive == ("false" == "true"));
    assert Upper(g) == g;
    KeepSame(s, (st: Student) => st.grade == Upper(g), (st: Student) => st.grade == g);
    KeepCountGrade(s, g);
    if g !in GetStats(s).gradeDistribution {
      CountGradeZero(s, g);
    }
  }

  /** The lower-cased term occurs in the lower-cased first name, last name,
      e-mail, or some subject. */
  predicate Hit(term: string, st: Student) {
    || Contains(Lower(st.firstName), term)
    || Contains(Lower(st.lastName), term)
    || Contains(Lower(st.email), term)
    || exists k :: 0 <= k < |st.subjects| && Contains(Lower(st.subjects[k]), term)
  }

  /** `GET /search?q=`: an absent or empty term is an invalid argument;
      otherwise the records the term hits, in collection order. */
  function Search(s: Store, q: Option<string>): (r: Result<Store>)
    ensures r.Failure? <==> !Given(q)
    ensures r.Failure? ==> r.error == InvalidArgument
    ensures r.Success? ==> forall x :: x in r.value <==> x in s && Hit(Lower(q.value), x)
    ensures r.Success? && |s| == 1 ==> r.value == if Hit(Lower(q.value), s[0]) then s else []
  {
    if q.None? then Failure(InvalidArgument)
    else
      var term := Lower(q.value);
      if term == "" then Failure(InvalidArgument)
      else Success(Keep(s, (st: Student) => Hit(term, st)))
  }

  /** The search filters in collection order: searching a concatenation is
      searching each part, one after the other. With the single-record case
      in the contract of `Search`, this fixes the result of any collection,
      order and repeats included. */
  lemma SearchAppend(a: Store, b: Store, t: string)
    requires Lower(t) != ""
    ensures Search(a + b, Some(t)).Success?
    ensures Search(a + b, Some(t)).value == Search(a, Some(t)).value + Search(b, Some(t)).value
  {
    KeepAppend(a, b, (st: Student) => Hit(Lower(t), st));
  }

  /** A longer term can only narrow the search: every record found for `b`
      is found for any piece `a` of it. */
  lemma SearchNarrows(s: Store, a: string, b: string)
    requires a != "" && Contains(b, a)
    ensures Search(s, Some(b)).Success? && Search(s, Some(a)).Success?
    ensures forall x :: x in Search(s, Some(b)).value ==> x in Search(s, Some(a)).value
  {
    ContainsLower(b, a);
    forall x | x in Search(s, Some(b)).value
      ensures x in Search(s, Some(a)).value
    {
      var tb, ta := Lower(b), Lower(a);
      assert Hit(tb, x);
      if Contains(Lower(x.firstName), tb) {
        ContainsTrans(Lower(x.firstName), tb, ta);
      } else if Contains(Lower(x.lastName), tb) {
        ContainsTrans(Lower(x.lastName), tb, ta);
      } else if Contains(Lower(x.email), tb) {
        ContainsTrans(Lower(x.email), tb, ta);
      } else {
        var k :| 0 <= k < |x.subjects| && Contains(Lower(x.subjects[k]), tb);
        ContainsTrans(Lower(x.subjects[k]), tb, ta);
      }
    }
  }

  /** Searching for a record's whole first name finds it. */
  lemma SearchFindsFirstName(s: Store, st: Student)
    requires st in s && st.firstName != ""
    ensures Search(s, Some(st.firstName)).Success?
    ensures st in Search(s, Some(st.firstName)).value
  {
    ContainsSelf(Lower(st.firstName));
  }

  /** `GET /grade/:grade`: a letter whose upper case is not one of A, B, C,
      D, F is an invalid argument; otherwise the records holding that
      upper-case letter, which is what the list route's grade filter gives. */
  function ByGrade(s: Store, g: string): (r: Result<Store>)
    ensures r.Failure? <==> !GradeAccepted(g)
    ensures r.Failure? ==> r.error == InvalidArgument
    ensures r.Success? ==> r.value == List(s, Query(None, Some(g), None))
  {
    var grade := Upper(g);
    if grade !in Grades then Failure(InvalidArgument)
    else
      KeepSame(s, (st: Student) => st.grade == grade, (st: Student) => st.grade == Upper(g));
      Success(Keep(s, (st: Student) => st.grade == grade))
  }

  /** `byGrade("f")` is `byGrade("F")`, and so for every pair of strings
      equal up to case. */
  lemma ByGradeCaseInsensitive(s: Store, a: string, b: string)
    requires Lower(a) == Lower(b)
    ensures ByGrade(s, a) == ByGrade(s, b)
  {
    UpperOfLowerEqual(a, b);
  }

  /** `GET /:id`: the first record with the id, or not found. */
  function Get(s: Store, id: int): (r: Result<Student>)
    ensures r.Failure? <==> !HasId(s, id)
    ensures r.Failure? ==> r.error == NotFound
    ensures r.Success? ==> r.value in s && r.value.id == id
  {
    match FindIndex(s, id)
    case None => Failure(NotFound)
    case Some(i) => Success(s[i])
  }

  /** With distinct ids, looking up a stored record's id returns it. */
  lemma GetStored(s: Store, st: Student)
    requires UniqueIds(s) && st in s
    ensures Get(s, st.id) == Success(st)
  {
    var k :| 0 <= k < |s| && s[k] == st;
    var i := FindIndex(s, st.id).value;
    assert i == k;
  }
}

=== FILE: records.dfy ===
/** The student record, the request bodies that create or patch one, the
    store's error kinds, and the lookups every route shares: the first index
    holding an id (`find` / `findIndex`), the next id (`generateNewId`) and
    order-preserving filtering (`Array.prototype.filter`). */
module Records {
  import opened Text

  datatype Option<T> = None | Some(value: T) {
    function GetOr(default: T): T {
      match this
      case Some(v) => v
      case None => default
    }
  }

  /** One stored student. `grade` is a string: the store writes whatever
      grade the request carried, upper-cased, and the seed holds `"c"`. */
  datatype Student = Student(
    id: int,
    firstName: string,
    lastName: string,
    email: string,
    age: int,
    grade: string,
    subjects: seq<string>,
    enrollmentDate: string,
    isActive: bool)

  /** A request body for create, a bulk entry or a partial update: each
      field is either present with a value or absent. */
  datatype Fields = Fields(
    firstName: Option<string>,
    lastName: Option<string>,
    email: Option<string>,
    age: Option<int>,
    grade: Option<string>,
    subjects: Option<seq<string>>,
    isActive: Option<bool>)

  datatype Field = FirstName | LastName | Email | Age | Grade | Subjects | IsActive

  /** `ValidationFailed(None)` is the validator's single aggregate failure;
      `ValidationFailed(Some(f))` is a partial update stopping at field `f`. */
  datatype Error = NotFound | ValidationFailed(field: Option<Field>) | Conflict | InvalidArgument

  datatype Result<T> = Success(value: T) | Failure(error: Error)

  /** The collection, in insertion order. */
  type Store = seq<Student>

  /** The reply of a route together with the collection after it ran. */
  datatype Step<T> = Step(reply: Result<T>, store: Store)

  const Grades: seq<string> := ["A", "B", "C", "D", "F"]

  /** `validGrades.includes(g.toUpperCase())` */
  predicate GradeAccepted(g: string) {
    Upper(g) in Grades
  }

  predicate HasId(s: Store, id: int) {
    exists k :: 0 <= k < |s| && s[k].id == id
  }

  /** Index of the first record with `id`, as `findIndex` and `find` scan. */
  function FindIndex(s: Store, id: int): (r: Option<nat>)
    ensures r.None? <==> !HasId(s, id)
    ensures r.Some? ==> r.value < |s| && s[r.value].id == id
    ensures r.Some? ==> forall k :: 0 <= k < r.value ==> s[k].id != id
  {
    FindFrom(s, id, 0)
  }

  function FindFrom(s: Store, id: int, from: nat): (r: Option<nat>)
    requires from <= |s|
    requires forall k :: 0 <= k < from ==> s[k].id != id
    ensures r.None? <==> !HasId(s, id)
    ensures r.Some? ==> from <= r.value < |s| && s[r.value].id == id
    ensures r.Some? ==> forall k :: 0 <= k < r.value ==> s[k].id != id
    decreases |s| - from
  {
    if from == |s| then None
    else if s[from].id == id then Some(from)
    else FindFrom(s, id, from + 1)
  }

  /** `Math.max(...ids)` over a non-empty collection. */
  function MaxId(s: Store): (m: int)
    requires |s| > 0
    ensures forall k :: 0 <= k < |s| ==> s[k].id <= m
    ensures exists k :: 0 <= k < |s| && s[k].id == m
  {
    if |s| == 1 then s[0].id
    else
      var rest := MaxId(s[1..]);
      assert forall k :: 1 <= k < |s| ==> s[k] == s[1..][k - 1];
      if s[0].id >= rest then s[0].id else rest
  }

  /** `generateNewId`: 1 for an empty collection, else the largest id plus
      one. The id is fresh: every stored id is smaller. */
  function NewId(s: Store): (r: int)
    ensures forall k :: 0 <= k < |s| ==> s[k].id < r
    ensures |s| == 0 ==> r == 1
    ensures |s| > 0 ==> exists k :: 0 <= k < |s| && s[k].id + 1 == r
  {
    if |s| > 0 then MaxId(s) + 1 else 1
  }

  /** Ids are pairwise distinct. */
  predicate UniqueIds(s: Store) {
    forall a, b :: 0 <= a < b < |s| ==> s[a].id != s[b].id
  }

  /** E-mails are pairwise distinct ignoring case. */
  predicate UniqueEmails(s: Store) {
    forall a, b :: 0 <= a < b < |s| ==> Lower(s[a].email) != Lower(s[b].email)
  }

  /** Some stored e-mail equals `e` ignoring case. */
  predicate EmailTaken(s: Store, e: string) {
    exists k :: 0 <= k < |s| && Lower(s[k].email) == Lower(e)
  }

  /** Appending a record with a fresh id and an untaken e-mail keeps both
      uniqueness invariants. */
  lemma AppendKeepsUnique(s: Store, st: Student)
    requires forall k :: 0 <= k < |s| ==> s[k].id < st.id
    requires !EmailTaken(s, st.email)
    ensures UniqueIds(s) ==> UniqueIds(s + [st])
    ensures UniqueEmails(s) ==> UniqueEmails(s + [st])
  {
    var t := s + [st];
    forall a, b | 0 <= a < b < |t|
      ensures t[a].id != t[b].id || !UniqueIds(s)
      ensures Lower(t[a].email) != Lower(t[b].email) || !UniqueEmails(s)
    {
      if b == |s| {
        assert t[a] == s[a];
      } else {
        assert t[a] == s[a] && t[b] == s[b];
      }
    }
  }

  /** `Array.prototype.filter`: the elements satisfying `p`, in order. */
  function Keep<T(!new)>(s: seq<T>, p: T -> bool): (r: seq<T>)
    ensures |r| <= |s|
    ensures forall x :: x in r <==> x in s && p(x)
  {
    if |s| == 0 then []
    else (if p(s[0]) then [s[0]] else []) + Keep(s[1..], p)
  }

  /** Filtering distributes over concatenation: it keeps the relative order
      of what it keeps. */
  lemma {:induction false} KeepAppend<T(!new)>(a: seq<T>, b: seq<T>, p: T -> bool)
    ensures Keep(a + b, p) == Keep(a, p) + Keep(b, p)
  {
    if |a| == 0 {
      assert a + b == b;
    } else {
      assert (a + b)[1..] == a[1..] + b;
      KeepAppend(a[1..], b, p);
    }
  }

  /** Filtering by `p` and then by `q` is filtering by their conjunction. */
  lemma {:induction false} KeepKeep<T(!new)>(s: seq<T>, p: T -> bool, q: T -> bool, pq: T -> bool)
    requires forall x :: pq(x) == (p(x) && q(x))
    ensures Keep(Keep(s, p), q) == Keep(s, pq)
  {
    if |s| > 0 {
      KeepKeep(s[1..], p, q, pq);
      var head := if p(s[0]) then [s[0]] else [];
      KeepAppend(head, Keep(s[1..], p), q);
      if p(s[0]) {
        assert Keep(head, q) == (if q(s[0]) then [s[0]] else []) by {
          assert head[1..] == [];
        }
      }
    }
  }

  /** A filter every element passes returns the sequence unchanged. */
  lemma {:induction false} KeepAll<T(!new)>(s: seq<T>, p: T -> bool)
    requires forall k :: 0 <= k < |s| ==> p(s[k])
    ensures Keep(s, p) == s
  {
    if |s| > 0 {
      KeepAll(s[1..], p);
      assert [s[0]] + s[1..] == s;
    }
  }

  /** Filters with the same verdict on every element agree. */
  lemma {:induction false} KeepSame<T(!new)>(s: seq<T>, p: T -> bool, q: T -> bool)
    requires forall x :: p(x) == q(x)
    ensures Keep(s, p) == Keep(s, q)
  {
    if |s| > 0 {
      KeepSame(s[1..], p, q);
    }
  }
}

=== FILE: text.dfy ===
/** String helpers the routes and the validator rely on: case mapping
    (`toUpperCase` / `toLowerCase`), substring search (`includes`), the
    whitespace class `\s` of JavaScript regular expressions, and the e-mail
    pattern `^\S+@\S+\.\S+$` written out by hand. Case mapping covers the
    ASCII letters only. */
module Text {

  function UpperChar(c: char): char {
    if 'a' <= c <= 'z' then (c as int - 32) as char else c
  }

  function LowerChar(c: char): char {
    if 'A' <= c <= 'Z' then (c as int + 32) as char else c
  }

  function Upper(s: string): (r: string)
    ensures |r| == |s|
    ensures forall i :: 0 <= i < |s| ==> r[i] == UpperChar(s[i])
  {
    seq(|s|, i requires 0 <= i < |s| => UpperChar(s[i]))
  }

  function Lower(s: string): (r: string)
    ensures |r| == |s|
    ensures forall i :: 0 <= i < |s| ==> r[i] == LowerChar(s[i])
  {
    seq(|s|, i requires 0 <= i < |s| => LowerChar(s[i]))
  }

  /** Two strings whose lower-case forms agree also agree upper-cased, so a
      check on `toUpperCase()` cannot tell them apart. */
  lemma UpperOfLowerEqual(a: string, b: string)
    requires Lower(a) == Lower(b)
    ensures Upper(a) == Upper(b)
  {
    forall i | 0 <= i < |a|
      ensures Upper(a)[i] == Upper(b)[i]
    {
      assert LowerChar(a[i]) == LowerChar(b[i]);
    }
  }

  /** The whitespace class `\s` of ECMAScript regular expressions:
      WhiteSpace (tab, VT, FF, space, NBSP, ZWNBSP, the Zs category) and
      LineTerminator (LF, CR, LS, PS). */
  predicate IsSpace(c: char) {
    var n := c as int;
    n == 0x09 || n == 0x0A || n == 0x0B || n == 0x0C || n == 0x0D || n == 0x20
    || n == 0xA0 || n == 0x1680 || (0x2000 <= n <= 0x200A) || n == 0x2028
    || n == 0x2029 || n == 0x202F || n == 0x205F || n == 0x3000 || n == 0xFEFF
  }

  predicate NoSpace(s: string) {
    forall i :: 0 <= i < |s| ==> !IsSpace(s[i])
  }

  /** `\S+`: one or more non-whitespace characters. */
  predicate NonSpaceRun(s: string) {
    |s| > 0 && NoSpace(s)
  }

  /** The anchored pattern `^\S+@\S+\.\S+$`: the whole string is a run of
      non-space characters, an `@`, a run, a `.`, and a run. The runs may
      themselves contain `@` and `.`. */
  predicate EmailPattern(s: string) {
    exists i, j :: 0 <= i < j < |s| && s[i] == '@' && s[j] == '.'
      && NonSpaceRun(s[..i]) && NonSpaceRun(s[i+1..j]) && NonSpaceRun(s[j+1..])
  }

  /** The pattern restated without the slices: no whitespace anywhere, an
      `@` past index 0 and a `.` with at least one character on each side
      that is not the `@`. */
  predicate EmailShape(s: string) {
    NoSpace(s) &&
    exists i, j :: 0 < i && i + 1 < j < |s| - 1 && s[i] == '@' && s[j] == '.'
  }

  lemma EmailPatternIsShape(s: string)
    ensures EmailPattern(s) <==> EmailShape(s)
  {
    if EmailPattern(s) {
      var i, j :| 0 <= i < j < |s| && s[i] == '@' && s[j] == '.'
        && NonSpaceRun(s[..i]) && NonSpaceRun(s[i+1..j]) && NonSpaceRun(s[j+1..]);
      forall k | 0 <= k < |s|
        ensures !IsSpace(s[k])
      {
        if k < i {
          assert s[k] == s[..i][k];
        } else if i < k < j {
          assert s[k] == s[i+1..j][k - i - 1];
        } else if j < k {
          assert s[k] == s[j+1..][k - j - 1];
        }
      }
    }
    if EmailShape(s) {
      var i, j :| 0 < i && i + 1 < j < |s| - 1 && s[i] == '@' && s[j] == '.';
      var before, middle, after := s[..i], s[i+1..j], s[j+1..];
      forall k | 0 <= k < |before| ensures !IsSpace(before[k]) { assert before[k] == s[k]; }
      forall k | 0 <= k < |middle| ensures !IsSpace(middle[k]) { assert middle[k] == s[i+1+k]; }
      forall k | 0 <= k < |after| ensures !IsSpace(after[k]) { assert after[k] == s[j+1+k]; }
      assert NonSpaceRun(before) && NonSpaceRun(middle) && NonSpaceRun(after);
    }
  }

  /** A linear scan deciding the pattern: reject on any whitespace, take the
      first `@` past index 0 (the leftmost one leaves the most room for the
      dot), then look for a `.` between it and the last character. */
  method MatchEmail(s: string) returns (b: bool)
    ensures b <==> EmailPattern(s)
  {
    EmailPatternIsShape(s);
    var k := 0;
    while k < |s|
      invariant 0 <= k <= |s|
      invariant forall m :: 0 <= m < k ==> !IsSpace(s[m])
    {
      if IsSpace(s[k]) {
        return false;
      }
      k := k + 1;
    }
    if |s| < 5 {
      return false;
    }
    var a := 1;
    while a < |s| && s[a] != '@'
      invariant 1 <= a <= |s|
      invariant forall m :: 1 <= m < a ==> s[m] != '@'
    {
      a := a + 1;
    }
    if a == |s| {
      return false;
    }
    var d := a + 2;
    while d < |s| - 1 && s[d] != '.'
      invariant a + 2 <= d
      invariant forall m :: a + 2 <= m < d && m < |s| - 1 ==> s[m] != '.'
    {
      d := d + 1;
    }
    b := d < |s| - 1;
  }

  /** `s.includes(t)`: `t` occurs in `s` at some offset. */
  predicate Contains(s: string, t: string) {
    exists k :: 0 <= k <= |s| && t <= s[k..]
  }

  lemma ContainsSelf(s: string)
    ensures Contains(s, s)
  {
    assert s <= s[0..];
  }

  /** Occurrence is transitive: a piece of a piece of `s` is a piece of `s`. */
  lemma ContainsTrans(s: string, t: string, u: string)
    requires Contains(s, t) && Contains(t, u)
    ensures Contains(s, u)
  {
    var k :| 0 <= k <= |s| && t <= s[k..];
    var m :| 0 <= m <= |t| && u <= t[m..];
    assert u <= s[k + m..] by {
      forall n | 0 <= n < |u|
        ensures u[n] == s[k + m..][n]
      {
        assert u[n] == t[m + n];
        assert t[m + n] == s[k..][m + n];
      }
    }
  }

  /** Lower-casing both sides keeps an occurrence. */
  lemma ContainsLower(s: string, t: string)
    requires Contains(s, t)
    ensures Contains(Lower(s), Lower(t))
  {
    var k :| 0 <= k <= |s| && t <= s[k..];
    assert Lower(t) <= Lower(s)[k..] by {
      forall n | 0 <= n < |t|
        ensures Lower(t)[n] == Lower(s)[k..][n]
      {
        assert t[n] == s[k..][n];
      }
    }
  }
}

=== FILE: updates.dfy ===
/** The single-record writes of the student router: create (`POST /`,
    behind `validateStudent`), partial update (`PUT /:id`), grade update
    (`PUT /:id/grade`) and delete (`DELETE /:id`). Each returns its reply
    together with the collection it leaves behind. */
module Updates {
  import opened Text
  import opened Records
  import opened Validation
  import opened Queries

  lemma LowerOfUpper(s: string)
    ensures Lower(Upper(s)) == Lower(s)
  {
    assert forall i :: 0 <= i < |s| ==> Lower(Upper(s))[i] == Lower(s)[i];
  }

  /** The record `POST /` appends for an accepted request. */
  function NewStudent(s: Store, f: Fields, today: string): Student
    requires ValidateStudent(f)
  {
    Student(NewId(s), f.firstName.value, f.lastName.value, f.email.value, f.age.value,
            Upper(f.grade.value), f.subjects.GetOr([]), today, f.isActive.GetOr(true))
  }

  /** `POST /`: the validator runs first (aggregate failure), then the
      case-insensitive e-mail check (conflict); otherwise one record with
      the id `generateNewId` gives the collection, the grade upper-cased,
      subjects defaulting to none and isActive to true is appended and
      returned. `today` stands for the
      clock's date. */
  function Create(s: Store, f: Fields, today: string): (r: Step<Student>)
    ensures r.reply == Failure(ValidationFailed(None)) <==> !ValidateStudent(f)
    ensures r.reply == Failure(Conflict) <==> ValidateStudent(f) && EmailTaken(s, f.email.value)
    ensures r.reply.Success? <==> ValidateStudent(f) && !EmailTaken(s, f.email.value)
    ensures r.reply.Failure? ==> r.store == s
    ensures r.reply.Success? ==>
      var st := r.reply.value;
      && r.store == s + [st]
      && st.id == NewId(s)
      && (forall k :: 0 <= k < |s| ==> s[k].id < st.id)
      && WellFormed(st)
      && st.firstName == f.firstName.value && st.lastName == f.lastName.value
      && st.email == f.email.value && st.age == f.age.value
      && Lower(st.grade) == Lower(f.grade.value)
      && st.subjects == f.subjects.GetOr([])
      && st.isActive == f.isActive.GetOr(true)
      && st.enrollmentDate == today
    ensures UniqueIds(s) ==> UniqueIds(r.store)
    ensures UniqueEmails(s) ==> UniqueEmails(r.store)
  {
    if !ValidateStudent(f) then Step(Failure(ValidationFailed(None)), s)
    else if EmailTaken(s, f.email.value) then Step(Failure(Conflict), s)
    else
      var st := NewStudent(s, f, today);
      LowerOfUpper(f.grade.value);
      AppendKeepsUnique(s, st);
      Step(Success(st), s + [st])
  }

  /** A created record can be read back by its id. */
  lemma CreateThenGet(s: Store, f: Fields, today: string)
    requires UniqueIds(s)
    requires Create(s, f, today).reply.Success?
    ensures Get(Create(s, f, today).store, Create(s, f, today).reply.value.id)
            == Success(Create(s, f, today).reply.value)
  {
    var r := Create(s, f, today);
    assert r.reply.value == r.store[|s|];
    GetStored(r.store, r.reply.value);
  }

  /** An e-mail that differs from a stored one only in case is a conflict. */
  lemma CreateCaseVariantConflicts(s: Store, f: Fields, today: string, k: nat)
    requires ValidateStudent(f)
    requires k < |s| && Lower(s[k].email) == Lower(f.email.value)
    ensures Create(s, f, today) == Step(Failure(Conflict), s)
  {
  }

  // ---------------------------------------------------------------------
  // Partial update

  /** The order in which `PUT /:id` looks at the patch. */
  const FieldOrder: seq<Field> := [FirstName, LastName, Email, Age, Grade, Subjects, IsActive]

  /** The format rule for one field of a patch; an absent field passes.
      Subjects and isActive carry no rule in this typed model. */
  predicate FieldFormatOk(fld: Field, p: Fields) {
    match fld
    case FirstName => p.firstName.None? || NameOk(p.firstName.value)
    case LastName => p.lastName.None? || NameOk(p.lastName.value)
    case Email => p.email.None? || EmailPattern(p.email.value)
    case Age => p.age.None? || AgeOk(p.age.value)
    case Grade => p.grade.None? || GradeAccepted(p.grade.value)
    case Subjects => true
    case IsActive => true
  }

  /** A record with a different id holds exactly this e-mail (case matters). */
  predicate EmailClash(s: Store, id: int, e: string) {
    exists k :: 0 <= k < |s| && s[k].email == e && s[k].id != id
  }

  /** The handler's check on one field: a format failure names the field,
      an e-mail held by another record is a conflict. */
  function CheckField(s: Store, id: int, fld: Field, p: Fields): Option<Error> {
    if !FieldFormatOk(fld, p) then Some(ValidationFailed(Some(fld)))
    else if fld == Email && p.email.Some? && EmailClash(s, id, p.email.value) then Some(Conflict)
    else None
  }

  /** The assignment the handler makes for one present field. */
  function ApplyField(st: Student, fld: Field, p: Fields): Student {
    match fld
    case FirstName => st.(firstName := p.firstName.GetOr(st.firstName))
    case LastName => st.(lastName := p.lastName.GetOr(st.lastName))
    case Email => st.(email := p.email.GetOr(st.email))
    case Age => st.(age := p.age.GetOr(st.age))
    case Grade => st.(grade := if p.grade.Some? then Upper(p.grade.value) else st.grade)
    case Subjects => st.(subjects := p.subjects.GetOr(st.subjects))
    case IsActive => st.(isActive := p.isActive.GetOr(st.isActive))
  }

  /** The assignments for the fields `fs`, in order. Id and enrollment date
      are never assigned, and a well-formed record stays well-formed when
      every applied value passes its format rule. */
  function ApplyAll(st: Student, fs: seq<Field>, p: Fields): (r: Student)
    ensures r.id == st.id && r.enrollmentDate == st.enrollmentDate
    ensures WellFormed(st) && (forall k :: 0 <= k < |fs| ==> FieldFormatOk(fs[k], p)) ==> WellFormed(r)
    decreases |fs|
  {
    if |fs| == 0 then st
    else
      assert forall k :: 0 <= k < |fs| - 1 ==> fs[1..][k] == fs[k + 1];
      ApplyFieldKeepsShape(st, fs[0], p);
      ApplyAll(ApplyField(st, fs[0], p), fs[1..], p)
  }

  /** One assignment keeps a well-formed record well-formed when the
      assigned value passes its format rule. */
  lemma ApplyFieldKeepsShape(st: Student, fld: Field, p: Fields)
    ensures WellFormed(st) && FieldFormatOk(fld, p) ==> WellFormed(ApplyField(st, fld, p))
    ensures ApplyField(st, fld, p).id == st.id
    ensures ApplyField(st, fld, p).enrollmentDate == st.enrollmentDate
  {
  }

  /** The whole patch applied at once: the reference meaning of a
      successful partial update. */
  function Patched(st: Student, p: Fields): Student {
    st.(firstName := p.firstName.GetOr(st.firstName),
        lastName := p.lastName.GetOr(st.lastName),
        email := p.email.GetOr(st.email),
        age := p.age.GetOr(st.age),
        grade := if p.grade.Some? then Upper(p.grade.value) else st.grade,
        subjects := p.subjects.GetOr(st.subjects),
        isActive := p.isActive.GetOr(st.isActive))
  }

  /** The field assignments in handler order, spelled out. */
  function ApplySeven(st: Student, p: Fields): Student {
    var s1 := ApplyField(st, FirstName, p);
    var s2 := ApplyField(s1, LastName, p);
    var s3 := ApplyField(s2, Email, p);
    var s4 := ApplyField(s3, Age, p);
    var s5 := ApplyField(s4, Grade, p);
    var s6 := ApplyField(s5, Subjects, p);
    ApplyField(s6, IsActive, p)
  }

  lemma ApplySevenIsPatched(st: Student, p: Fields)
    ensures ApplySeven(st, p) == Patched(st, p)
  {
    var r := ApplySeven(st, p);
    assert r.firstName == p.firstName.GetOr(st.firstName);
    assert r.lastName == p.lastName.GetOr(st.lastName);
    assert r.email == p.email.GetOr(st.email);
    assert r.age == p.age.GetOr(st.age);
    assert r.grade == if p.grade.Some? then Upper(p.grade.value) else st.grade;
    assert r.subjects == p.subjects.GetOr(st.subjects);
    assert r.isActive == p.isActive.GetOr(st.isActive);
    assert r.id == st.id && r.enrollmentDate == st.enrollmentDate;
  }

  lemma ApplyAllIsPatched(st: Student, p: Fields)
    ensures ApplyAll(st, FieldOrder, p) == Patched(st, p)
  {
    var fs := FieldOrder;
    var s1 := ApplyField(st, FirstName, p);
    var s2 := ApplyField(s1, LastName, p);
    var s3 := ApplyField(s2, Email, p);
    var s4 := ApplyField(s3, Age, p);
    var s5 := ApplyField(s4, Grade, p);
    var s6 := ApplyField(s5, Subjects, p);
    var s7 := ApplyField(s6, IsActive, p);
    assert fs[6..] == [IsActive] && fs[6..][1..] == [];
    assert ApplyAll(s6, fs[6..], p) == s7;
    assert fs[5..] == [Subjects, IsActive] && fs[5..][1..] == fs[6..];
    assert ApplyAll(s5, fs[5..], p) == s7;
    assert fs[4..][1..] == fs[5..] && fs[4..][0] == Grade;
    assert ApplyAll(s4, fs[4..], p) == s7;
    assert fs[3..][1..] == fs[4..] && fs[3..][0] == Age;
    assert ApplyAll(s3, fs[3..], p) == s7;
    assert fs[2..][1..] == fs[3..] && fs[2..][0] == Email;
    assert ApplyAll(s2, fs[2..], p) == s7;
    assert fs[1..][1..] == fs[2..] && fs[1..][0] == LastName;
    assert ApplyAll(s1, fs[1..], p) == s7;
    assert s7 == ApplySeven(st, p);
    ApplySevenIsPatched(st, p);
  }

  /** The e-mail clash check ignores the record being updated, so it gives
      the same verdict before and after that record's own fields change. */
  lemma CheckFieldFrame(s: Store, t: Store, i: nat, id: int, fld: Field, p: Fields)
    requires i < |s| == |t| && s[i].id == id && t[i].id == id
    requires forall k :: 0 <= k < |s| && k != i ==> t[k] == s[k]
    ensures CheckField(t, id, fld, p) == CheckField(s, id, fld, p)
  {
    if p.email.Some? {
      var e := p.email.value;
      if EmailClash(s, id, e) {
        var k :| 0 <= k < |s| && s[k].email == e && s[k].id != id;
        assert t[k] == s[k];
      }
      if EmailClash(t, id, e) {
        var k :| 0 <= k < |t| && t[k].email == e && t[k].id != id;
        assert t[k] == s[k];
      }
    }
  }

  /** Every field of `fs` passes the handler's check. */
  predicate AllPass(s: Store, id: int, fs: seq<Field>, p: Fields) {
    forall k :: 0 <= k < |fs| ==> CheckField(s, id, fs[k], p).None?
  }

  /** The handler's field-by-field walk over `fs` on the record at index
      `i`: each present field is checked and, if it passes, assigned into
      the stored record at once; the first failing check ends the walk,
      keeping the assignments already made. */
  function ApplyFields(s: Store, i: nat, id: int, p: Fields, fs: seq<Field>): (r: Step<Student>)
    requires i < |s| && s[i].id == id
    ensures |r.store| == |s|
    ensures forall k :: 0 <= k < |s| && k != i ==> r.store[k] == s[k]
    ensures r.store[i].id == id && r.store[i].enrollmentDate == s[i].enrollmentDate
    ensures r.reply.Success? <==> AllPass(s, id, fs, p)
    ensures r.reply.Success? ==> r.reply.value == r.store[i] == ApplyAll(s[i], fs, p)
    ensures r.reply.Failure? ==> r.reply.error != NotFound
    ensures WellFormed(s[i]) ==> WellFormed(r.store[i])
    decreases |fs|
  {
    if |fs| == 0 then Step(Success(s[i]), s)
    else
      match CheckField(s, id, fs[0], p)
      case Some(e) => Step(Failure(e), s)
      case None =>
        var t := s[i := ApplyField(s[i], fs[0], p)];
        assert ApplyField(s[i], fs[0], p) == ApplyAll(s[i], fs[..1], p);
        assert forall k :: 0 <= k < |fs| - 1 ==> fs[1..][k] == fs[k + 1];
        assert forall fld :: CheckField(t, id, fld, p) == CheckField(s, id, fld, p) by {
          forall fld ensures CheckField(t, id, fld, p) == CheckField(s, id, fld, p) {
            CheckFieldFrame(s, t, i, id, fld, p);
          }
        }
        ApplyFields(t, i, id, p, fs[1..])
  }

  /** On failure the walk stopped at the first field whose check fails, and
      the record holds exactly the assignments of the fields before it. */
  lemma {:induction false} ApplyFieldsStopsAtFirst(s: Store, i: nat, id: int, p: Fields, fs: seq<Field>)
    requires i < |s| && s[i].id == id
    requires ApplyFields(s, i, id, p, fs).reply.Failure?
    ensures var r := ApplyFields(s, i, id, p, fs);
      exists n :: 0 <= n < |fs|
        && CheckField(s, id, fs[n], p) == Some(r.reply.error)
        && AllPass(s, id, fs[..n], p)
        && r.store[i] == ApplyAll(s[i], fs[..n], p)
    decreases |fs|
  {
    var r := ApplyFields(s, i, id, p, fs);
    if CheckField(s, id, fs[0], p).Some? {
      assert fs[..0] == [];
      assert 0 <= 0 < |fs| && CheckField(s, id, fs[0], p) == Some(r.reply.error)
        && AllPass(s, id, fs[..0], p) && r.store[i] == ApplyAll(s[i], fs[..0], p);
    } else {
      var t := s[i := ApplyField(s[i], fs[0], p)];
      assert r == ApplyFields(t, i, id, p, fs[1..]);
      ApplyFieldsStopsAtFirst(t, i, id, p, fs[1..]);
      var m :| 0 <= m < |fs[1..]|
        && CheckField(t, id, fs[1..][m], p) == Some(r.reply.error)
        && AllPass(t, id, fs[1..][..m], p)
        && r.store[i] == ApplyAll(t[i], fs[1..][..m], p);
      var n := m + 1;
      assert fs[..n][0] == fs[0] && fs[..n][1..] == fs[1..][..m];
      CheckFieldFrame(s, t, i, id, fs[n], p);
      forall k | 0 <= k < n
        ensures CheckField(s, id, fs[..n][k], p).None?
      {
        if k > 0 {
          assert fs[..n][k] == fs[1..][..m][k - 1];
          CheckFieldFrame(s, t, i, id, fs[..n][k], p);
        }
      }
      assert ApplyAll(s[i], fs[..n], p) == ApplyAll(t[i], fs[1..][..m], p);
    }
  }

  /** `PUT /:id`: an unknown id is not found and changes nothing. Otherwise
      the first record with the id is walked through firstName, lastName,
      email, age, grade, subjects, isActive. The reply is the record with the
      whole patch applied when every check passes; on a failing check the
      fields before it stay applied. No other record, and never the id or
      the enrollment date, changes. */
  function UpdatePartial(s: Store, id: int, p: Fields): (r: Step<Student>)
    ensures r.reply == Failure(NotFound) <==> !HasId(s, id)
    ensures !HasId(s, id) ==> r.store == s
    ensures |r.store| == |s|
    ensures forall k :: 0 <= k < |s| ==>
      r.store[k].id == s[k].id && r.store[k].enrollmentDate == s[k].enrollmentDate
    ensures HasId(s, id) ==>
      var i := FindIndex(s, id).value;
      && (forall k :: 0 <= k < |s| && k != i ==> r.store[k] == s[k])
      && (r.reply.Success? <==> AllPass(s, id, FieldOrder, p))
      && (r.reply.Success? ==> r.reply.value == r.store[i] == Patched(s[i], p))
      && (WellFormed(s[i]) ==> WellFormed(r.store[i]))
      && (r.reply.Failure? ==>
            exists n :: (0 <= n < |FieldOrder|
              && CheckField(s, id, FieldOrder[n], p) == Some(r.reply.error)
              && AllPass(s, id, FieldOrder[..n], p)
              && r.store[i] == ApplyAll(s[i], FieldOrder[..n], p)))
  {
    match FindIndex(s, id)
    case None => Step(Failure(NotFound), s)
    case Some(i) =>
      WalkOutcome(s, i, id, p);
      ApplyFields(s, i, id, p, FieldOrder)
  }

  /** The walk over all seven fields: on success the record is the whole
      patch applied; on failure it stopped at the first failing field. */
  lemma WalkOutcome(s: Store, i: nat, id: int, p: Fields)
    requires i < |s| && s[i].id == id
    ensures var r := ApplyFields(s, i, id, p, FieldOrder);
      && (forall k :: 0 <= k < |s| ==>
            r.store[k].id == s[k].id && r.store[k].enrollmentDate == s[k].enrollmentDate)
      && (r.reply.Success? ==> r.reply.value == r.store[i] == Patched(s[i], p))
      && (r.reply.Failure? ==>
            exists n :: (0 <= n < |FieldOrder|
              && CheckField(s, id, FieldOrder[n], p) == Some(r.reply.error)
              && AllPass(s, id, FieldOrder[..n], p)
              && r.store[i] == ApplyAll(s[i], FieldOrder[..n], p)))
  {
    ApplyAllIsPatched(s[i], p);
    if ApplyFields(s, i, id, p, FieldOrder).reply.Failure? {
      ApplyFieldsStopsAtFirst(s, i, id, p, FieldOrder);
    }
  }

  /** One passing field: the walk assigns it and moves on. */
  lemma ApplyFieldsStep(s: Store, i: nat, id: int, p: Fields, fs: seq<Field>)
    requires i < |s| && s[i].id == id && |fs| > 0
    requires CheckField(s, id, fs[0], p).None?
    ensures ApplyFields(s, i, id, p, fs) == ApplyFields(s[i := ApplyField(s[i], fs[0], p)], i, id, p, fs[1..])
  {
  }

  /** A patch whose fields before age are valid but whose age is out of
      range fails on age, yet the earlier fields are already written:
      the update is not all-or-nothing. */

  lemma UpdateBadAgeKeepsEarlierFields(s: Store, id: int, p: Fields)
    requires HasId(s, id)
    requires FieldFormatOk(FirstName, p) && FieldFormatOk(LastName, p) && p.email.None?
    requires p.age.Some? && !AgeOk(p.age.value)
    ensures var r := UpdatePartial(s, id, p);
      var i := FindIndex(s, id).value;
      && r.reply == Failure(ValidationFailed(Some(Age)))
      && r.store == s[i := s[i].(firstName := p.firstName.GetOr(s[i].firstName),
                                 lastName := p.lastName.GetOr(s[i].lastName))]
  {
    var i := FindIndex(s, id).value;
    var fs := FieldOrder;
    assert fs[0] == FirstName && fs[1] == LastName && fs[2] == Email && fs[3] == Age;
    assert AllPass(s, id, fs[..3], p) by {
      assert forall k :: 0 <= k < 3 ==> fs[..3][k] == fs[k];
    }
    UpdateStopsAt(s, id, p, 3);
    ApplyFirstThree(s[i], p);
  }

  /** When the fields before position `m` pass and the field at `m` fails,
      the update fails with that field's error and the record holds exactly
      the assignments of the fields before `m`; nothing else changes. */
  lemma UpdateStopsAt(s: Store, id: int, p: Fields, m: nat)
    requires HasId(s, id) && m < |FieldOrder|
    requires AllPass(s, id, FieldOrder[..m], p) && CheckField(s, id, FieldOrder[m], p).Some?
    ensures var r := UpdatePartial(s, id, p);
      var i := FindIndex(s, id).value;
      && r.reply == Failure(CheckField(s, id, FieldOrder[m], p).value)
      && r.store == s[i := ApplyAll(s[i], FieldOrder[..m], p)]
  {
    var i := FindIndex(s, id).value;
    assert UpdatePartial(s, id, p) == ApplyFields(s, i, id, p, FieldOrder);
    ApplyFieldsStopsAt(s, i, id, p, FieldOrder, m);
  }

  /** The walk over `fs` stops at position `m` when every field before it
      passes and the field at `m` fails: the error is that field's, and the
      record holds the assignments of exactly the fields before `m`. */
  lemma {:induction false} ApplyFieldsStopsAt(s: Store, i: nat, id: int, p: Fields, fs: seq<Field>, m: nat)
    requires i < |s| && s[i].id == id && m < |fs|
    requires AllPass(s, id, fs[..m], p) && CheckField(s, id, fs[m], p).Some?
    ensures ApplyFields(s, i, id, p, fs)
            == Step(Failure(CheckField(s, id, fs[m], p).value), s[i := ApplyAll(s[i], fs[..m], p)])
    decreases m
  {
    if m == 0 {
      assert fs[..0] == [];
      assert s[i := s[i]] == s;
    } else {
      assert fs[..m][0] == fs[0];
      var t := s[i := ApplyField(s[i], fs[0], p)];
      ApplyFieldsStep(s, i, id, p, fs);
      var before, rest := fs[..m], fs[1..][..m - 1];
      assert forall k :: 0 <= k < m - 1 ==> rest[k] == before[k + 1];
      forall k | 0 <= k < m - 1 ensures CheckField(t, id, rest[k], p).None? {
        CheckFieldFrame(s, t, i, id, rest[k], p);
      }
      CheckFieldFrame(s, t, i, id, fs[m], p);
      assert fs[1..][m - 1] == fs[m];
      ApplyFieldsStopsAt(t, i, id, p, fs[1..], m - 1);
      assert fs[..m][1..] == fs[1..][..m - 1];
      assert ApplyAll(s[i], fs[..m], p) == ApplyAll(t[i], fs[1..][..m - 1], p);
      assert t[i := ApplyAll(t[i], fs[1..][..m - 1], p)] == s[i := ApplyAll(s[i], fs[..m], p)];
    }
  }

  /** Assigning firstName, lastName and an absent e-mail. */
  lemma ApplyFirstThree(st: Student, p: Fields)
    requires p.email.None?
    ensures ApplyAll(st, FieldOrder[..3], p)
            == st.(firstName := p.firstName.GetOr(st.firstName), lastName := p.lastName.GetOr(st.lastName))
  {
    var fs := FieldOrder[..3];
    var s1 := ApplyField(st, FirstName, p);
    var s2 := ApplyField(s1, LastName, p);
    assert fs[0] == FirstName && fs[1..][0] == LastName && fs[1..][1..][0] == Email;
    assert fs[1..][1..][1..] == [];
    assert ApplyField(s2, Email, p) == s2;
    assert ApplyAll(s2, fs[1..][1..], p) == s2;
    assert ApplyAll(s1, fs[1..], p) == s2;
  }

  /** A patch carrying only an invalid age changes nothing. */
  lemma UpdateOnlyBadAgeChangesNothing(s: Store, id: int, age: int)
    requires HasId(s, id) && !AgeOk(age)
    ensures UpdatePartial(s, id, Fields(None, None, None, Some(age), None, None, None))
            == Step(Failure(ValidationFailed(Some(Age))), s)
  {
    var p := Fields(None, None, None, Some(age), None, None, None);
    var i := FindIndex(s, id).value;
    UpdateBadAgeKeepsEarlierFields(s, id, p);
    assert s[i].(firstName := s[i].firstName, lastName := s[i].lastName) == s[i];
  }

  /** E-mails are pairwise distinct as written (case counts). */
  predicate DistinctEmails(s: Store) {
    forall a, b :: 0 <= a < b < |s| ==> s[a].email != s[b].email
  }

  /** The update's clash check is exact, so with distinct ids it keeps
      e-mails distinct as written; it does not keep them distinct ignoring
      case (see `Examples.UpdateAllowsCaseVariantEmail`). */
  lemma UpdateKeepsDistinctEmails(s: Store, id: int, p: Fields)
    requires UniqueIds(s) && DistinctEmails(s)
    ensures DistinctEmails(UpdatePartial(s, id, p).store)
  {
    var r := UpdatePartial(s, id, p);
    if HasId(s, id) {
      var i := FindIndex(s, id).value;
      forall a, b | 0 <= a < b < |s|
        ensures r.store[a].email != r.store[b].email
      {
        if a != i && b != i {
        } else if r.store[i].email != s[i].email {
          var other := if a == i then b else a;
          assert r.store[other] == s[other] && s[other].id != id;
          UpdateEmailSource(s, id, p);
        }
      }
    }
  }

  /** A patch carrying only a well-shaped e-mail that no other record holds
      exactly passes every check of the partial update. */
  lemma EmailOnlyPatchPasses(s: Store, id: int, e: string)
    requires EmailPattern(e) && !EmailClash(s, id, e)
    ensures AllPass(s, id, FieldOrder, Fields(None, None, Some(e), None, None, None, None))
  {
  }

  /** The converse side of `UpdateKeepsDistinctEmails`: an e-mail-only
      patch whose e-mail equals another record's up to case, but not
      exactly, succeeds, and the collection loses uniqueness ignoring case. */
  lemma UpdateCaseVariantBreaksUnique(s: Store, id: int, e: string, k: nat)
    requires HasId(s, id) && EmailPattern(e) && !EmailClash(s, id, e)
    requires k < |s| && s[k].id != id && Lower(s[k].email) == Lower(e)
    ensures var r := UpdatePartial(s, id, Fields(None, None, Some(e), None, None, None, None));
      r.reply.Success? && !UniqueEmails(r.store)
  {
    var p := Fields(None, None, Some(e), None, None, None, None);
    var r := UpdatePartial(s, id, p);
    var i := FindIndex(s, id).value;
    EmailOnlyPatchPasses(s, id, e);
    assert r.store[i] == Patched(s[i], p);
    assert r.store[i].email == e;
    assert r.store[k] == s[k];
    if i < k {
      assert Lower(r.store[i].email) == Lower(r.store[k].email);
    } else {
      assert Lower(r.store[k].email) == Lower(r.store[i].email);
    }
  }

  /** A changed e-mail came from the patch and passed the clash check. */
  lemma UpdateEmailSource(s: Store, id: int, p: Fields)
    requires HasId(s, id)
    ensures var r := UpdatePartial(s, id, p);
      var i := FindIndex(s, id).value;
      r.store[i].email != s[i].email ==>
        p.email.Some? && r.store[i].email == p.email.value && !EmailClash(s, id, p.email.value)
  {
    var r := UpdatePartial(s, id, p);
    var i := FindIndex(s, id).value;
    if r.store[i].email != s[i].email {
      if r.reply.Success? {
        assert CheckField(s, id, FieldOrder[2], p).None?;
      } else {
        var n :| 0 <= n < |FieldOrder|
          && CheckField(s, id, FieldOrder[n], p) == Some(r.reply.error)
          && AllPass(s, id, FieldOrder[..n], p)
          && r.store[i] == ApplyAll(s[i], FieldOrder[..n], p);
        EmailOnlyFromPatch(s[i], FieldOrder[..n], p);
        assert n > 2 by {
          if n <= 2 {
            EmailUntouched(s[i], FieldOrder[..n], p);
          }
        }
        assert FieldOrder[..n][2] == Email;
      }
    }
  }

  lemma {:induction false} EmailUntouched(st: Student, fs: seq<Field>, p: Fields)
    requires forall k :: 0 <= k < |fs| ==> fs[k] != Email
    ensures ApplyAll(st, fs, p).email == st.email
    decreases |fs|
  {
    if |fs| > 0 {
      assert forall k :: 0 <= k < |fs| - 1 ==> fs[1..][k] == fs[k + 1];
      EmailUntouched(ApplyField(st, fs[0], p), fs[1..], p);
    }
  }

  lemma {:induction false} EmailOnlyFromPatch(st: Student, fs: seq<Field>, p: Fields)
    ensures ApplyAll(st, fs, p).email == st.email
            || (p.email.Some? && ApplyAll(st, fs, p).email == p.email.value)
    decreases |fs|
  {
    if |fs| > 0 {
      EmailOnlyFromPatch(ApplyField(st, fs[0], p), fs[1..], p);
    }
  }

  // ---------------------------------------------------------------------
  // Grade update

  /** `PUT /:id/grade`: an unknown id is not found; an absent, empty or
      unknown grade is an invalid argument; otherwise only the grade of the
      first record with the id changes, to the upper-cased letter. */
  function UpdateGrade(s: Store, id: int, g: Option<string>): (r: Step<Student>)
    ensures r.reply == Failure(NotFound) <==> !HasId(s, id)
    ensures r.reply == Failure(InvalidArgument) <==>
              HasId(s, id) && !(g.Some? && g.value != "" && GradeAccepted(g.value))
    ensures r.reply.Success? <==> HasId(s, id) && g.Some? && g.value != "" && GradeAccepted(g.value)
    ensures r.reply.Failure? ==> r.store == s
    ensures r.reply.Success? ==>
      var i := FindIndex(s, id).value;
      && r.reply.value.grade in Grades
      && Lower(r.reply.value.grade) == Lower(g.value)
      && r.reply.value == s[i].(grade := r.reply.value.grade)
      && r.store == s[i := r.reply.value]
  {
    match FindIndex(s, id)
    case None => Step(Failure(NotFound), s)
    case Some(i) =>
      if g.None? || g.value == "" || !GradeAccepted(g.value) then Step(Failure(InvalidArgument), s)
      else
        LowerOfUpper(g.value);
        var st := s[i].(grade := Upper(g.value));
        Step(Success(st), s[i := st])
  }

  /** For an accepted letter the grade route and a grade-only partial
      update give the same reply and the same collection. */
  lemma UpdateGradeIsGradeOnlyPatch(s: Store, id: int, g: string)
    requires g != "" && GradeAccepted(g)
    ensures UpdateGrade(s, id, Some(g)) == UpdatePartial(s, id, Fields(None, None, None, None, Some(g), None, None))
  {
    var p := Fields(None, None, None, None, Some(g), None, None);
    var a := UpdateGrade(s, id, Some(g));
    var b := UpdatePartial(s, id, p);
    if HasId(s, id) {
      var i := FindIndex(s, id).value;
      assert AllPass(s, id, FieldOrder, p) by {
        forall k | 0 <= k < |FieldOrder| ensures CheckField(s, id, FieldOrder[k], p).None? {
        }
      }
      var st := s[i].(grade := Upper(g));
      assert a == Step(Success(st), s[i := st]);
      GradeOnlyPatchApplies(s, id, g);
    }
  }

  /** A grade-only patch with an accepted letter changes only that record's
      grade. */
  lemma GradeOnlyPatchApplies(s: Store, id: int, g: string)
    requires HasId(s, id) && AllPass(s, id, FieldOrder, Fields(None, None, None, None, Some(g), None, None))
    ensures var i := FindIndex(s, id).value;
      var st := s[i].(grade := Upper(g));
      var b := UpdatePartial(s, id, Fields(None, None, None, None, Some(g), None, None));
      b.reply == Success(st) && b.store == s[i := st]
  {
    var i := FindIndex(s, id).value;
    var st := s[i].(grade := Upper(g));
    var p := Fields(None, None, None, None, Some(g), None, None);
    var b := UpdatePartial(s, id, p);
    assert Patched(s[i], p) == st;
    OnlyAt(s, b.store, i, st);
  }

  /** A collection that agrees with `s` everywhere but at `i`, where it
      holds `st`, is `s` with `st` at `i`. */
  lemma OnlyAt(s: Store, t: Store, i: nat, st: Student)
    requires |t| == |s| && i < |s| && t[i] == st
    requires forall k :: 0 <= k < |s| && k != i ==> t[k] == s[k]
    ensures t == s[i := st]
  {
  }

  // ---------------------------------------------------------------------
  // Delete

  /** `DELETE /:id`: an unknown id is not found; otherwise the first record
      with the id is removed and returned, the rest keeping their order. */
  function Delete(s: Store, id: int): (r: Step<Student>)
    ensures r.reply.Failure? <==> !HasId(s, id)
    ensures r.reply.Failure? ==> r.reply.error == NotFound && r.store == s
    ensures r.reply.Success? ==>
      && r.reply.value.id == id
      && |r.store| == |s| - 1
      && multiset(r.store) + multiset{r.reply.value} == multiset(s)
      && exists i :: 0 <= i < |s| && s[i] == r.reply.value && r.store == s[..i] + s[i + 1..]
           && forall k :: 0 <= k < i ==> s[k].id != id
  {
    match FindIndex(s, id)
    case None => Step(Failure(NotFound), s)
    case Some(i) =>
      assert s == s[..i] + [s[i]] + s[i + 1..];
      Step(Success(s[i]), s[..i] + s[i + 1..])
  }

  /** With distinct ids, a deleted id is gone, and both uniqueness
      invariants survive the removal. */
  lemma DeleteThenGet(s: Store, id: int)
    requires UniqueIds(s) && HasId(s, id)
    ensures Get(Delete(s, id).store, id) == Failure(NotFound)
    ensures UniqueIds(Delete(s, id).store)
    ensures UniqueEmails(s) ==> UniqueEmails(Delete(s, id).store)
  {
    var i := FindIndex(s, id).value;
    var t := Delete(s, id).store;
    assert t == s[..i] + s[i + 1..];
    forall k | 0 <= k < |t|
      ensures t[k] == s[if k < i then k else k + 1]
    {
    }
  }
}

=== FILE: validation.dfy ===
/** The create-time validator `validateStudent` and the shape of a record
    that passed it. */
module Validation {
  import opened Text
  import opened Records

  /** A first or last name: 2 to 50 characters. */
  predicate NameOk(n: string) {
    2 <= |n| <= 50
  }

  /** An age: 16 to 100 inclusive. */
  predicate AgeOk(a: int) {
    16 <= a <= 100
  }

  /** `validateStudent`: true when the request may proceed to the handler,
      false when it is answered with the single aggregate "Validation
      failed" error. Only the five named fields are examined. */
  function ValidateStudent(f: Fields): (ok: bool)
    ensures ok ==> f.firstName.Some? && f.lastName.Some? && f.email.Some?
                   && f.age.Some? && f.grade.Some?
    ensures ok ==> Upper(f.grade.value) in Grades && EmailPattern(f.email.value)
    ensures ok ==> 16 <= f.age.value <= 100
  {
    && f.firstName.Some? && NameOk(f.firstName.value)
    && f.lastName.Some? && NameOk(f.lastName.value)
    && f.email.Some? && f.email.value != "" && EmailPattern(f.email.value)
    && f.age.Some? && AgeOk(f.age.value)
    && f.grade.Some? && GradeAccepted(f.grade.value)
  }

  /** The record shape the validator guarantees for a record built from an
      accepted request (with the grade upper-cased). */
  predicate WellFormed(st: Student) {
    NameOk(st.firstName) && NameOk(st.lastName) && EmailPattern(st.email)
    && AgeOk(st.age) && st.grade in Grades
  }

  /** The validator looks at firstName, lastName, email, age and grade
      only: subjects and isActive never change its verdict. */
  lemma OnlyFiveFields(f: Fields, subjects: Option<seq<string>>, isActive: Option<bool>)
    ensures ValidateStudent(f) == ValidateStudent(f.(subjects := subjects, isActive := isActive))
  {
  }

  /** The age bounds are inclusive: 16 and 100 pass, 15 and 101 fail,
      everything else about the request being equal. */
  lemma AgeBoundaries(f: Fields)
    requires ValidateStudent(f)
    ensures ValidateStudent(f.(age := Some(16))) && ValidateStudent(f.(age := Some(100)))
    ensures !ValidateStudent(f.(age := Some(15))) && !ValidateStudent(f.(age := Some(101)))
  {
  }

  /** A name passes exactly when it has 2 to 50 characters, everything
      else about the request being equal; an absent name fails. */
  lemma NameBoundaries(f: Fields, n: string)
    requires ValidateStudent(f)
    ensures ValidateStudent(f.(firstName := Some(n))) <==> 2 <= |n| <= 50
    ensures ValidateStudent(f.(lastName := Some(n))) <==> 2 <= |n| <= 50
    ensures !ValidateStudent(f.(firstName := None)) && !ValidateStudent(f.(lastName := None))
  {
  }

  /** Grade letters are accepted in either case; an absent grade is not. */
  lemma GradeCaseInsensitive(f: Fields, g: string)
    requires ValidateStudent(f)
    requires Lower(g) == Lower(f.grade.value)
    ensures ValidateStudent(f.(grade := Some(g)))
    ensures !ValidateStudent(f.(grade := None))
  {
    UpperOfLowerEqual(g, f.grade.value);
  }
}
